=== FILE: README.md ===
# Photo slideshow: payload handling, video job arithmetic and the upload selection

This project models, in Dafny, the two pieces of the photo-slideshow web application that carry real logic. All other code in the application is routing, database and media-library glue.

1. **The slideshow job and its payloads (app.py).**
   - The browser and the gallery exchange images as one `$`-joined string of data URIs.
   - The server splits that string into its non-blank items and strips the `;base64,` envelope from each item.
   - `clipGenerator` turns one item into an image clip shown for a fixed time.
   - `VideoCreator` checks its inputs in a fixed order. It then builds one clip per item, stopping at the first bad one. The video lasts `clip_duration * len(items)` seconds. The audio track is looped `ceil(video / audio)` times and cut to the video's length. The output file is named `slideshow_<timestamp>.mp4`.
   - The `upload` route parses the same payload but skips items that fail to decode.
   - `gallery` and `create_video` build `data:image/png;base64,` URIs, and `create_video` joins them with `$` to call the job.
2. **The upload page's selection (static/js/upload.js).** The page keeps a list of picked files, deduplicated by name and size, and a list of data URLs read from them. The events are: pick files, a file read finishing, remove one preview, clear, and submit. Submit posts the data URLs joined with `$`.

Modules:
- `Results` (option and result types).
- `Lists` (order-preserving filter).
- `Text` (Python's `split`, `join`, `isspace`, `find` and `str(int)`, plus `posixpath.join` and `basename`).
- `Payload` (parsing, envelope, data URIs).
- `Slideshow` (`clipGenerator`, `VideoCreator`).
- `Routes` (`upload`, `gallery`, `create_video`).
- `UploadClient` (upload.js).

Some calls go outside the code modelled here: the base64 codec, `imageio.imread`, moviepy's audio loader and `write_videofile`, `os.path.exists` and `time.time()`. They become parameters: the `Media` record, an encoder function and a `timestamp`. Rows read from the database are also parameters, and rows inserted are results.

Some behaviours of the code are easy to miss. The model keeps them as written:
- A missing audio file makes `VideoCreator` fail with `AudioNotFound`. The job has no silent fallback for it. Only an audio track whose loaded length is not positive gives a silent video.
- `duration` is not checked to be positive. When it is not, the video length is not positive and `ceil(video / audio)` is below 1. moviepy cannot join zero audio copies, so the job fails with `EmptyAudioLoop` when the track has a positive length.
- A failing item is reported without its index.
- Clips are resized to the screen width only, so the height of `SCREEN_SIZE` plays no part. There is no crop or letterbox.
- Names use whole seconds, so two jobs in the same second get the same name (`Slideshow.OutputNameInjective`).

## Model

| member | source | states |
|---|---|---|
| Lists.Filter | app.py:168 | the kept elements all satisfy the test and come from the input; every element of the input that satisfies the test is kept; never longer than the input |
| Lists.FilterAppend | app.py:168 | the comprehension over a concatenation is the concatenation of the comprehensions, so kept items keep their relative order |
| Lists.FilterAllKept | app.py:168 | when every piece qualifies the comprehension returns the pieces unchanged |
| Text.Split | app.py:168 | `split("$")` yields at least one piece, no piece contains the separator, and joining the pieces with the separator gives back the input |
| Text.IsSpace | app.py:168 | a character counts as whitespace, as for Python's `str.isspace`, exactly when it is a space, one of U+0009–U+000D, one of U+001C–U+001F, or one of U+0085, U+00A0, U+1680, U+2000–U+200A, U+2028, U+2029, U+202F, U+205F, U+3000 |
| Text.IsBlank | app.py:168 | a piece fails the `if s.strip()` test exactly when every one of its characters is whitespace in the sense of `Text.IsSpace` (so the empty piece is blank) |
| Text.Join | app.py:435 | `"$".join(parts)`, and `imageDataArray.join("$")` in the upload script: the empty list gives `""`, one part gives itself, and otherwise the parts in order with one separator between neighbours and none at either end |
| Text.SplitOfJoin | app.py:435 | splitting a join of separator-free parts returns exactly those parts, so join and split are inverse both ways |
| Text.SplitWithoutSeparator | app.py:168 | text without a separator splits into itself alone |
| Text.SplitAtFirstSeparator | app.py:168 | splitting `w + "$" + t` with `w` separator-free gives `w` followed by the pieces of `t` |
| Text.FindFrom | app.py:138-139 | returns an occurrence at or after the start with none before it, or `None` exactly when no occurrence remains |
| Text.Find | app.py:138 | `Some` exactly when the marker occurs (`';base64,' in s`), and then the first occurrence |
| Text.OccurrenceStartsWithHead | app.py:138 | an occurrence of a non-empty marker begins with the marker's first character |
| Text.Decimal | app.py:205 | the rendering of the timestamp is a non-empty string of digits without a leading zero |
| Text.DecimalRoundTrip | app.py:205 | reading the rendered digits back gives the timestamp |
| Text.DecimalInjective | app.py:205 | two timestamps render the same exactly when they are equal |
| Text.PathJoin | app.py:172 | `os.path.join` puts one `/` between a directory and a relative name, adds none when the directory is empty or already ends in `/`, and an absolute name replaces the directory |
| Text.Basename | app.py:205 | the basename holds no `/`, is a suffix of the path, and is preceded by a `/` when shorter than the path |
| Text.BasenameOfJoin | app.py:205 | the basename of `dir/name` is `name` when `name` holds no `/` |
| Payload.Items | app.py:168 | every item is non-blank and `$`-free, and every non-blank piece between separators is an item |
| Payload.ParseItems | app.py:165-170 | an empty payload is `NoImageLinks`; the payload fails exactly when every piece is blank; on success the items are the non-blank pieces, at least one |
| Payload.ParseOfJoin | app.py:316-325 | a payload joined from non-blank, `$`-free parts parses back to exactly those parts in order |
| Payload.StripEnvelope | app.py:138-139 | without the marker the text is unchanged; with it, the result is the text after the marker's first occurrence; always a suffix of the input |
| Payload.StripWithoutSemicolon | app.py:336-337 | text containing no `;` is left unchanged by the strip |
| Payload.StripDataUri | app.py:428 | stripping `data:image/png;base64,` + t gives t for every t |
| Payload.DataUri | app.py:375 | the data URI around base64 text `t` is `data:image/png;base64,` followed by `t` |
| Payload.DataUris | app.py:428 | one `Payload.DataUri` per base64 text, in the same order and of the same number |
| Payload.DataUriRoundTrip | app.py:424-435 | data URIs built from base64 texts, joined with `$` and parsed, give back the same URIs, and each strips to its base64 text |
| Slideshow.ClipGenerator | app.py:128-156 | a missing item is `EmptyBase64`; a decode failure of the stripped item is `Base64DecodeFailed`; success exactly when decode and image read succeed, with the decoded bytes, the screen width and the given duration |
| Slideshow.ClipOfDataUri | app.py:138-142 | a clip built from a server-made data URI decodes exactly the base64 text inside it |
| Slideshow.BuildClips | app.py:177-181 | succeeds exactly when every item yields a clip, then one clip per item in order; otherwise fails with the error of the first item that fails |
| Slideshow.UniformTimeline | app.py:178-188 | clips that all last `d` seconds make a timeline of `d * n` seconds |
| Slideshow.Ceil | app.py:195 | the result is the least integer not below its argument |
| Slideshow.RepeatCountBounds | app.py:195 | `repeat_count * audio >= video` and `(repeat_count - 1) * audio < video` |
| Slideshow.RepeatCount | app.py:195 | `math.ceil(video_duration / audio_duration)` for a positive audio length, the video length taken as an exact real |
| Slideshow.RepeatCountOfShortVideo | app.py:195-197 | when `0 < video <= audio` the track is used once |
| Slideshow.SyncAudio | app.py:189-198 | silent exactly when the audio length is not positive; fails, always with `EmptyAudioLoop`, exactly when audio is positive and the video is not; when both are positive the result is a loop that covers the video with the fewest copies, trimmed to exactly the video's length |
| Slideshow.NineSecondsOverShortTrack | app.py:188-197 | three 3-second images over a 2.5-second track give four copies cut to 9 seconds |
| Slideshow.OutputNameInjective | app.py:204-205 | two timestamps give the same file name exactly when they are equal |
| Slideshow.OutputName | app.py:205 | `slideshow_`, then the decimal digits of the timestamp, then `.mp4` |
| Slideshow.AudioPath | app.py:172 | `Text.PathJoin` of `static/audio` and the requested file name, so an absolute name replaces the directory as in `os.path.join` |
| Slideshow.OutputPathBasename | app.py:201-215 | the file is written to `static/videos/<name>` and the returned name is the basename of that path |
| Slideshow.VideoCreator | app.py:158-215 | an empty payload, then an all-blank payload, then a missing audio file, then the first bad item, then an unreadable track, then a zero-copy loop, then a failed write at the output path are reported in that order, each exactly when the earlier steps pass; when no step fails the job succeeds; success implies the audio file exists, one clip per item, video length `duration * len(items)` equal to the timeline, a soundtrack that is the audio step applied to the loaded length (silent exactly when that length is not positive), the file written at `static/videos/slideshow_<timestamp>.mp4` with 24 fps, libx264 and aac, and its name returned |
| Slideshow.ValidationPrecedesClipWork | app.py:164-181 | when the payload is rejected or the audio file is missing, the job fails regardless of the codec and image reader |
| Slideshow.FirstBadItemFailsJob | app.py:179-181 | with valid payload and audio, the first item `clipGenerator` rejects fails the job with that item's error |
| Slideshow.BadItemFailsJob | app.py:141-144 | any one item `clipGenerator` rejects makes the job fail |
| Slideshow.ClipsShowDecodedItems | app.py:179-181 | clip `k` of a finished video shows the decoded bytes of item `k` and lasts the given duration |
| Slideshow.JobOnDataUris | app.py:424-436 | a job on joined server-made data URIs never fails parsing, and its clips show the decodings of the base64 texts in order |
| Routes.RowFor | app.py:336-346 | an item yields a row exactly when its stripped text decodes, holding the decoded bytes for the session user |
| Routes.StoredRows | app.py:334-346 | never more rows than items, all for the session user and named `uploaded_image` |
| Routes.StoredRowsAppend | app.py:334-346 | storing a batch stores its halves one after the other, so input order is kept |
| Routes.BadItemIsSkipped | app.py:338-342 | an item that fails to decode can be removed from the batch without changing what is stored |
| Routes.AllItemsStored | app.py:334-346 | when every item decodes, exactly one row per item is stored, in order |
| Routes.StoreBatch | app.py:333-346 | the loop with `continue` on decode failure inserts exactly the rows of the reference definition |
| Routes.Upload | app.py:315-346 | missing or empty data, then an all-blank payload, then a missing session user, are reported in that order; otherwise the decodable items are stored, at most one row per item |
| Routes.BadItemShrinksBatch | app.py:338-342 | a batch with an undecodable item stores fewer rows than it has items |
| Routes.BatchPolicies | app.py:338-342 | for the same payload, an undecodable item is dropped by the upload but fails the video job |
| Routes.Gallery | app.py:369-376 | at most one image per row; each is a `data:image/png;base64,` URI whose stripped text is the encoding of some row's photo under that row's id |
| Routes.GalleryAppend | app.py:370-376 | the images of a concatenation of rows are the images of its halves in order, so row order is kept |
| Routes.GalleryOfOne | app.py:371-376 | a row without a photo gives no image; a row with one gives exactly its data URI under its id |
| Routes.GalleryKeepsEveryPhoto | app.py:370-376 | every row holding a photo is shown, whatever the other rows hold |
| Routes.GalleryShowsEveryPhoto | app.py:370-376 | when every row holds a photo, even an empty one, each row becomes an image, in row order |
| Routes.KeptBlobs | app.py:424-428 | the kept blobs are non-empty photos of the rows, and every non-empty photo is kept |
| Routes.KeptBlobsAppend | app.py:424-428 | the blobs kept from a concatenation of rows are those kept from its halves in order, so order and repeats are kept |
| Routes.KeptBlobsOfOne | app.py:425-428 | one row keeps its photo exactly when the photo is present and non-empty |
| Routes.ImageData | app.py:423-428 | one data URI per kept blob, the `k`-th wrapping the encoding of the `k`-th kept blob |
| Routes.CreateVideo | app.py:400-445 | no session user, then an empty selection, then no non-empty photo, are reported in that order; a created video carries the timestamped name |
| Routes.AudioFileOf | app.py:407 | the form's `audio_file` when present, otherwise `default.mp3` |
| Routes.DurationOf | app.py:408 | the form's `duration` when present, otherwise 3 |
| Routes.CreateVideoShowsKeptPhotos | app.py:422-436 | with an encoder emitting base64 text that its decoder inverts, the payload always parses, and a created video shows exactly the kept photos in row order for the requested duration |
| Routes.CreateVideoSucceedsWhen | app.py:400-441 | under the same codec assumptions, a video is created exactly when there is a session user, a non-empty selection and some kept photo, the audio file exists, every kept photo reads as an image, the track loads, the soundtrack fits `duration * kept photos` seconds, and the file is written |
| Slideshow.JobSucceedsWhen | app.py:158-215 | a job on joined server-made data URIs succeeds exactly when the audio file exists, every decoded photo reads as an image, the track loads, the soundtrack fits, and the write succeeds |
| Slideshow.ClipsReadKeptPhotos | app.py:128-181 | the clips of server-made data URIs are all built exactly when every photo behind them reads as an image |
| UploadClient.AddNew | static/js/upload.js:73-79 | the selection grows by exactly the files whose reads are started, appended in order, no more than the batch |
| UploadClient.IsImageFile | static/js/upload.js:66 | a file is kept by the filter exactly when its MIME type starts with `image/` |
| UploadClient.HasEntry | static/js/upload.js:74 | the `find` succeeds exactly when some selected file has the same name and the same size as the new one |
| UploadClient.AddNewAppend | static/js/upload.js:73-79 | the batch is visited in order: adding `a + b` is adding `a`, then `b` to the grown selection, with the started reads concatenated in that order |
| UploadClient.AddNewOfOne | static/js/upload.js:74-79 | one file is pushed and its read started exactly when no selected file has its name and size; otherwise nothing changes |
| UploadClient.FirstOfTwinsKept | static/js/upload.js:73-79 | of two files with the same name and size in one batch, the first is pushed and the second skipped |
| UploadClient.AddNewKeepsDistinct | static/js/upload.js:74-78 | after an add, no two selected files share name and size |
| UploadClient.AddNewCoversBatch | static/js/upload.js:73-78 | after an add, every file of the batch has its name and size selected |
| UploadClient.AddNewStartsOnlyNew | static/js/upload.js:74-80 | a read is started only for a file of the batch whose name and size were not selected before |
| UploadClient.AddNewOfKnownFiles | static/js/upload.js:74-76 | a batch whose names and sizes are all selected adds nothing and starts no read |
| UploadClient.HandleFiles | static/js/upload.js:64-99 | notifies and changes nothing exactly when no file is an image; the data URLs are untouched; the selection only grows, stays duplicate-free, covers every picked image and adds only picked images |
| UploadClient.ReAddChangesNothing | static/js/upload.js:74-76 | re-picking image files already selected leaves the state unchanged and starts no read |
| UploadClient.HandleFilesIdempotent | static/js/upload.js:64-99 | picking the same files twice gives the same selection as picking them once |
| UploadClient.FileLoadedAsWritten | static/js/upload.js:81-89 | a finished read appends its data URL and leaves the selected files alone |
| UploadClient.FileLoaded | static/js/upload.js:81-89 | a finished read appends its data URL, and its preview's remove index points at that URL |
| UploadClient.LoadsRestoreLength | static/js/upload.js:81-83 | once every started read has delivered, the two lists have equal length and the URLs are appended in delivery order |
| UploadClient.Splice1 | static/js/upload.js:104 | `splice(i, 1)` removes index `i` in range, counts a negative `i` from the end, clamps below the start, and changes nothing at or past the end or on an empty list |
| UploadClient.RemoveImage | static/js/upload.js:103-105 | for each list on its own, an in-range index deletes exactly that position and an index at or past its end leaves it unchanged; equal lengths stay equal; selected files stay distinct |
| UploadClient.RemoveWhileReadPending | static/js/upload.js:83-89 | as written, with one of two reads finished, the preview's index lies past the end of the data URLs, so its button drops the second file and leaves the data URLs as they are |
| UploadClient.RemoveButtonRemovesItsImage | static/js/upload.js:81-105 | with the corrected binding, a preview's remove button removes exactly that preview's data URL |
| UploadClient.PickTwoImages | static/js/upload.js:64-79 | picking two distinct images into an empty selection selects both and starts both reads |
| UploadClient.PreviewIndexCollision | static/js/upload.js:89 | as written, two images picked together both get remove index 1, and the first preview's button removes the second image |
| UploadClient.PreviewIndexCorrected | static/js/upload.js:89 | with the corrected binding, the two previews get indices 0 and 1 and each removes its own data URL |
| UploadClient.ClearImages | static/js/upload.js:127-129 | both lists are empty afterwards |
| UploadClient.Submit | static/js/upload.js:46-54 | nothing is sent, with a notice, exactly when there is no data URL; otherwise the posted field splits back into the data URLs unless one of them holds `$` |
| UploadClient.SubmitReachesServer | static/js/upload.js:48-54 | for non-blank, `$`-free data URLs the server's parse recovers the list exactly, and a logged-in upload stores their decodable items |

## Left out

- Flask routes, sessions, flash messages and templates, the psycopg2 connection, table creation and the queries are glue. Rows read are parameters and rows inserted are results. The insert into the videos table after a job is also left out. So are the database exceptions the routes catch, and the other routes (login, register, dashboard, delete_image, admin, logout, health).
- bcrypt password checking is a foreign crypto library.
- moviepy and imageio do pixel and codec work: decode, `ImageClip`, resize and centring, `concatenate_videoclips` and `write_videofile`. An image is the byte string it was decoded from. Audio is its length. Success of the image read, the audio load and the write are given by `Media`. The frame rate and the codecs appear only as the settings passed to the write.
- `os.path.exists`, `os.makedirs` and `time.time()` are not modelled: existence is a parameter, and the timestamp is the already-truncated `int(time.time())`, taken as a natural number.
- The base64 codec is a library call. Decoding is a given partial function. Encoding is a given function, and the end-to-end lemma assumes its output uses the RFC 4648 section 4 alphabet and that decoding inverts it. Python's lenient decoder is not re-implemented.
- Slideshow.SyncAudio: durations are exact reals, so the float rounding of `video_duration / audio_duration` and of moviepy's reported duration is not modelled.
- Routes.CreateVideo: `int(request.form.get('duration', 3))` is taken as an already-parsed optional integer, so the `ValueError` of a non-numeric field is not modelled.
- Routes.CreateVideo: a created video's clip count is not tied to the number of rows for an arbitrary encoder. It is tied under the base64 assumptions in `Routes.CreateVideoShowsKeptPhotos`.
- UploadClient.HandleFiles: the FileReader loads are separate `FileLoaded` events, so no alignment of the two lists is claimed after a pick beyond `UploadClient.LoadsRestoreLength`.
- UploadClient.Splice1: only integer indices are modelled; JavaScript's conversion of other index values is not.
- DOM rendering of previews, notifications and the loading button state is not modelled. Only the index bound to a preview's remove button is.
- static/js/gallery.js and static/js/main.js are pure UI and are not part of this model.
- Concurrency of jobs and the uniqueness of names across concurrent jobs are not modelled beyond name injectivity in the timestamp.

## Findings

| source | as written | input that shows it | evidently intended | confidence | as-written member | corrected member |
|---|---|---|---|---|---|---|
| static/js/upload.js:89 | each preview's remove button is bound to `selectedFiles.length - 1` at the time its read finishes, after the whole batch was pushed | pick two distinct images in one change event into an empty selection: both previews get index 1, and the first preview's button removes the second image | bind each button to the position its data URL takes in `imageDataArray`, which is what `removeImage` splices | medium, not executed | UploadClient.PreviewIndexCollision | UploadClient.FileLoaded |

=== FILE: lists.dfy ===
/** Order-preserving selection over sequences: the list comprehensions
    `[x for x in xs if keep(x)]` and `Array.prototype.filter`. */
module Lists {

  /** The elements of `xs` that satisfy `keep`, in their original order. */
  function Filter<T>(xs: seq<T>, keep: T -> bool): (ys: seq<T>)
    ensures |ys| <= |xs|
    ensures forall i :: 0 <= i < |ys| ==> keep(ys[i]) && ys[i] in xs
    ensures forall i :: 0 <= i < |xs| && keep(xs[i]) ==> xs[i] in ys
    decreases |xs|
  {
    if |xs| == 0 then []
    else if keep(xs[0]) then [xs[0]] + Filter(xs[1..], keep)
    else Filter(xs[1..], keep)
  }

  /** Filtering distributes over concatenation; together with the singleton
      case this says the selection keeps the relative order of `xs`. */
  lemma {:induction false} FilterAppend<T>(a: seq<T>, b: seq<T>, keep: T -> bool)
    ensures Filter(a + b, keep) == Filter(a, keep) + Filter(b, keep)
    decreases |a|
  {
    if |a| == 0 {
      assert a + b == b;
    } else {
      assert (a + b)[0] == a[0];
      assert (a + b)[1..] == a[1..] + b;
      FilterAppend(a[1..], b, keep);
    }
  }

  /** When every element qualifies, nothing is dropped. */
  lemma {:induction false} FilterAllKept<T>(xs: seq<T>, keep: T -> bool)
    requires forall i :: 0 <= i < |xs| ==> keep(xs[i])
    ensures Filter(xs, keep) == xs
    decreases |xs|
  {
    if |xs| > 0 {
      FilterAllKept(xs[1..], keep);
    }
  }
}

=== FILE: payload.dfy ===
/** How app.py turns the `$`-joined form field into image items, strips the
    data-URI envelope from one item, and builds the data URIs it hands to
    the browser and to the video job. */
module Payload {
  import opened Results
  import opened Lists
  import opened Text

  /** Items of the payload are separated by this character. */
  const Separator: char := '$'
  /** The envelope of a data URI ends at the first occurrence of this marker. */
  const Base64Marker: string := ";base64,"
  /** Every data URI the server builds starts with this prefix. */
  const PngDataUriPrefix: string := "data:image/png;base64,"

  /** Python's `s.strip()` is truthy. */
  predicate NonBlank(s: string) {
    !IsBlank(s)
  }

  /** The pieces of the payload between separators that are not blank. */
  function Items(payload: string): (items: seq<string>)
    ensures forall i :: 0 <= i < |items| ==> NonBlank(items[i]) && Separator !in items[i]
    ensures forall j :: 0 <= j < |Split(payload, Separator)| && NonBlank(Split(payload, Separator)[j]) ==>
              Split(payload, Separator)[j] in items
  {
    var pieces := Split(payload, Separator);
    var items := Filter(pieces, NonBlank);
    assert forall i :: 0 <= i < |items| ==> Separator !in items[i] by {
      forall i | 0 <= i < |items| ensures Separator !in items[i] {
        var j :| 0 <= j < |pieces| && pieces[j] == items[i];
      }
    }
    items
  }

  datatype ParseError =
    | NoImageLinks   // the payload is empty
    | NoValidItems   // every piece of the payload is blank

  /** The two validation steps that open both the video job and the upload
      route: an empty payload, then a payload with no non-blank piece. */
  function ParseItems(payload: string): (r: Result<seq<string>, ParseError>)
    ensures r == Failure(NoImageLinks) <==> payload == ""
    ensures r.Failure? <==> forall j :: 0 <= j < |Split(payload, Separator)| ==> IsBlank(Split(payload, Separator)[j])
    ensures r.Success? ==> r.value == Items(payload) && |r.value| >= 1
  {
    var pieces := Split(payload, Separator);
    if payload == "" then
      assert pieces == [""];
      Failure(NoImageLinks)
    else
      var items := Items(payload);
      if |items| == 0 then
        Failure(NoValidItems)
      else
        assert NonBlank(items[0]) && items[0] in pieces;
        Success(items)
  }

  /** A payload built by joining non-blank, separator-free parts parses back
      to exactly those parts, in order. */
  lemma ParseOfJoin(parts: seq<string>)
    requires |parts| >= 1
    requires forall i :: 0 <= i < |parts| ==> NonBlank(parts[i]) && Separator !in parts[i]
    ensures ParseItems(Join(parts, Separator)) == Success(parts)
  {
    var payload := Join(parts, Separator);
    SplitOfJoin(parts, Separator);
    FilterAllKept(parts, NonBlank);
    if payload == "" {
      assert Split(payload, Separator) == [""];
      assert IsBlank(parts[0]);
    }
  }

  /** `s.split(";base64,", 1)[1]` when the marker occurs, `s` otherwise. */
  function StripEnvelope(s: string): (r: string)
    ensures !Contains(s, Base64Marker) ==> r == s
    ensures Contains(s, Base64Marker) ==>
              exists i :: OccursAt(s, Base64Marker, i) && r == s[i + |Base64Marker|..] &&
                          forall j :: 0 <= j < i ==> !OccursAt(s, Base64Marker, j)
    ensures |r| <= |s| && s[|s| - |r|..] == r
  {
    match Find(s, Base64Marker)
    case Some(i) => s[i + |Base64Marker|..]
    case None => s
  }

  /** Text without a `;` carries no envelope, so stripping leaves it alone. */
  lemma StripWithoutSemicolon(s: string)
    requires ';' !in s
    ensures StripEnvelope(s) == s
  {
    forall i | 0 <= i ensures !OccursAt(s, Base64Marker, i) {
      if i < |s| {
        assert s[i] in s;
      }
      OccurrenceStartsWithHead(s, Base64Marker, i);
    }
  }

  /** The data URI the server builds around base64 text. */
  function DataUri(b64: string): string {
    PngDataUriPrefix + b64
  }

  /** One data URI per base64 text, in order. */
  function DataUris(b64s: seq<string>): seq<string> {
    seq(|b64s|, k requires 0 <= k < |b64s| => DataUri(b64s[k]))
  }

  /** Stripping the envelope of a server-built data URI gives back the base64
      text, whatever that text is: the marker's first occurrence is inside
      the prefix. */
  lemma StripDataUri(b64: string)
    ensures StripEnvelope(DataUri(b64)) == b64
  {
    var d := DataUri(b64);
    assert d[..22] == PngDataUriPrefix;
    assert d[14..22] == Base64Marker;
    assert OccursAt(d, Base64Marker, 14);
    forall j | 0 <= j < 14 ensures !OccursAt(d, Base64Marker, j) {
      assert d[j] == PngDataUriPrefix[j];
      assert PngDataUriPrefix[j] != ';';
      OccurrenceStartsWithHead(d, Base64Marker, j);
    }
    assert d[22..] == b64;
  }

  /** The RFC 4648 section 4 alphabet plus the padding character. */
  predicate IsBase64Char(c: char) {
    'A' <= c <= 'Z' || 'a' <= c <= 'z' || '0' <= c <= '9' || c == '+' || c == '/' || c == '='
  }

  predicate IsBase64Text(s: string) {
    forall i :: 0 <= i < |s| ==> IsBase64Char(s[i])
  }

  /** Joining server-built data URIs and splitting the result again (the
      round trip from create_video into VideoCreator) returns the same URIs,
      and stripping each one returns its base64 text. */
  lemma {:induction false} DataUriRoundTrip(b64s: seq<string>)
    requires |b64s| >= 1
    requires forall k :: 0 <= k < |b64s| ==> IsBase64Text(b64s[k])
    ensures ParseItems(Join(DataUris(b64s), Separator)) == Success(DataUris(b64s))
    ensures forall k :: 0 <= k < |b64s| ==> StripEnvelope(DataUris(b64s)[k]) == b64s[k]
  {
    var uris := DataUris(b64s);
    forall i | 0 <= i < |uris|
      ensures NonBlank(uris[i]) && Separator !in uris[i]
    {
      var d := uris[i];
      assert d[0] == 'd' && !IsSpace(d[0]);
      forall k | 0 <= k < |d| ensures d[k] != Separator {
        if k < |PngDataUriPrefix| {
          assert d[k] == PngDataUriPrefix[k];
        } else {
          assert d[k] == b64s[i][k - |PngDataUriPrefix|];
          assert IsBase64Char(d[k]);
        }
      }
    }
    ParseOfJoin(uris);
    forall k | 0 <= k < |b64s| ensures StripEnvelope(uris[k]) == b64s[k] {
      StripDataUri(b64s[k]);
    }
  }
}

=== FILE: results.dfy ===
/** Failure-carrying return types used in place of the exceptions the
    application raises and the `None` values it passes around. */
module Results {

  /** An optional value: Python's `None`, JavaScript's `undefined`. */
  datatype Option<+T> = None | Some(value: T)

  /** The outcome of an operation that either produces a value or fails
      with a typed error instead of raising. */
  datatype Result<+T, +E> = Success(value: T) | Failure(error: E)
}

=== FILE: routes.dfy ===
/** The parts of app.py's routes that handle image payloads: the item loop
    of `upload`, the data URIs of `gallery`, and the way `create_video`
    builds the payload it hands to `VideoCreator`. The session, the
    database and the templates are left to the caller: rows read from the
    database are parameters and rows written to it are results. */
module Routes {
  import opened Results
  import opened Text
  import opened Payload
  import opened Slideshow

  /** `session.get('mail')` is truthy. */
  predicate LoggedIn(user: Option<string>) {
    user.Some? && user.value != ""
  }

  /** One row inserted into the photos table. */
  datatype PhotoRow = PhotoRow(username: string, photoName: string, photo: Bytes, dimensions: string)

  /** The fixed name and dimension label every uploaded photo gets. */
  const UploadedPhotoName: string := "uploaded_image"
  const DefaultDimensions: string := "default"

  /** The row the upload loop inserts for one item, or `None` when decoding
      the stripped item raises. */
  function RowFor(username: string, item: string, b64decode: string -> Option<Bytes>): (row: Option<PhotoRow>)
    ensures row.Some? <==> b64decode(StripEnvelope(item)).Some?
    ensures row.Some? ==> row.value.username == username && Some(row.value.photo) == b64decode(StripEnvelope(item))
  {
    match b64decode(StripEnvelope(item))
    case None => None
    case Some(blob) => Some(PhotoRow(username, UploadedPhotoName, blob, DefaultDimensions))
  }

  /** The rows the upload loop inserts: undecodable items are skipped, the
      rest are stored in input order. */
  function StoredRows(username: string, links: seq<string>, b64decode: string -> Option<Bytes>): (rows: seq<PhotoRow>)
    ensures |rows| <= |links|
    ensures forall k :: 0 <= k < |rows| ==> rows[k].username == username && rows[k].photoName == UploadedPhotoName
    decreases |links|
  {
    if |links| == 0 then []
    else RowsFor(username, links[0], b64decode) + StoredRows(username, links[1..], b64decode)
  }

  /** The rows one item contributes: none or one. */
  function RowsFor(username: string, item: string, b64decode: string -> Option<Bytes>): seq<PhotoRow> {
    match RowFor(username, item, b64decode)
    case None => []
    case Some(row) => [row]
  }

  /** Storing a batch stores its two halves one after the other: the loop
      keeps the input order. */
  lemma {:induction false} StoredRowsAppend(username: string, a: seq<string>, b: seq<string>, b64decode: string -> Option<Bytes>)
    ensures StoredRows(username, a + b, b64decode) == StoredRows(username, a, b64decode) + StoredRows(username, b, b64decode)
    decreases |a|
  {
    if |a| == 0 {
      assert a + b == b;
    } else {
      assert (a + b)[0] == a[0];
      assert (a + b)[1..] == a[1..] + b;
      StoredRowsAppend(username, a[1..], b, b64decode);
    }
  }

  /** A batch of one item stores that item's rows. */
  lemma StoredRowsOfOne(username: string, x: string, b64decode: string -> Option<Bytes>)
    ensures StoredRows(username, [x], b64decode) == RowsFor(username, x, b64decode)
  {
    assert [x][1..] == [];
  }

  /** An item that fails to decode is skipped: removing it changes nothing. */
  lemma BadItemIsSkipped(username: string, a: seq<string>, x: string, b: seq<string>, b64decode: string -> Option<Bytes>)
    requires b64decode(StripEnvelope(x)).None?
    ensures StoredRows(username, a + [x] + b, b64decode) == StoredRows(username, a + b, b64decode)
  {
    StoredRowsOfOne(username, x, b64decode);
    StoredRowsAppend(username, a + [x], b, b64decode);
    StoredRowsAppend(username, a, [x], b64decode);
    StoredRowsAppend(username, a, b, b64decode);
  }

  /** When every item decodes, one row per item is stored, in order, each
      holding that item's decoded bytes. */
  lemma {:induction false} AllItemsStored(username: string, links: seq<string>, b64decode: string -> Option<Bytes>)
    requires forall k :: 0 <= k < |links| ==> b64decode(StripEnvelope(links[k])).Some?
    ensures |StoredRows(username, links, b64decode)| == |links|
    ensures forall k :: 0 <= k < |links| ==>
              StoredRows(username, links, b64decode)[k] == RowFor(username, links[k], b64decode).value
    decreases |links|
  {
    if |links| > 0 {
      AllItemsStored(username, links[1..], b64decode);
      var rows := StoredRows(username, links, b64decode);
      forall k | 0 <= k < |links| ensures rows[k] == RowFor(username, links[k], b64decode).value {
        if k > 0 {
          assert links[1..][k - 1] == links[k];
        }
      }
    }
  }

  /** Storing one more item extends the stored rows by that item's rows. */
  lemma StoredRowsStep(username: string, links: seq<string>, i: nat, b64decode: string -> Option<Bytes>)
    requires i < |links|
    ensures StoredRows(username, links[..i + 1], b64decode) ==
            StoredRows(username, links[..i], b64decode) + RowsFor(username, links[i], b64decode)
  {
    assert links[..i + 1] == links[..i] + [links[i]];
    StoredRowsAppend(username, links[..i], [links[i]], b64decode);
    StoredRowsOfOne(username, links[i], b64decode);
  }

  /** The item loop of `upload` as written: one pass, `continue` on a
      decode failure, one insert per decoded item. */
  method StoreBatch(username: string, links: seq<string>, b64decode: string -> Option<Bytes>) returns (rows: seq<PhotoRow>)
    ensures rows == StoredRows(username, links, b64decode)
  {
    rows := [];
    var i := 0;
    while i < |links|
      invariant 0 <= i <= |links|
      invariant rows == StoredRows(username, links[..i], b64decode)
    {
      var blob := b64decode(StripEnvelope(links[i]));
      StoredRowsStep(username, links, i, b64decode);
      if blob.Some? {
        rows := rows + [PhotoRow(username, UploadedPhotoName, blob.value, DefaultDimensions)];
      }
      i := i + 1;
    }
    assert links[..i] == links;
  }

  datatype UploadOutcome =
    | NoImageData        // the form field is missing or empty
    | NoValidImages      // every piece of the payload is blank
    | UploadNeedsLogin   // no user in the session
    | Saved(rows: seq<PhotoRow>)

  /** The POST branch of `upload`: the payload is checked before the
      session, then every decodable item is stored. */
  function Upload(data: Option<string>, user: Option<string>, b64decode: string -> Option<Bytes>): (r: UploadOutcome)
    ensures r == NoImageData <==> data.None? || data.value == ""
    ensures r == NoValidImages <==> data.Some? && ParseItems(data.value) == Failure(NoValidItems)
    ensures r == UploadNeedsLogin <==> data.Some? && ParseItems(data.value).Success? && !LoggedIn(user)
    ensures r.Saved? ==> data.Some? && LoggedIn(user) && r.rows == StoredRows(user.value, Items(data.value), b64decode)
    ensures r.Saved? ==> |r.rows| <= |Items(data.value)|
  {
    if data.None? then NoImageData
    else
      match ParseItems(data.value)
      case Failure(NoImageLinks) => NoImageData
      case Failure(NoValidItems) => NoValidImages
      case Success(links) =>
        if !LoggedIn(user) then UploadNeedsLogin
        else Saved(StoredRows(user.value, links, b64decode))
  }

  /** A batch with an item that fails to decode stores fewer rows than it has items. */
  lemma BadItemShrinksBatch(username: string, links: seq<string>, b64decode: string -> Option<Bytes>, i: nat)
    requires i < |links| && b64decode(StripEnvelope(links[i])).None?
    ensures |StoredRows(username, links, b64decode)| < |links|
  {
    var a, b := links[..i], links[i + 1..];
    assert links == a + [links[i]] + b;
    BadItemIsSkipped(username, a, links[i], b, b64decode);
    assert |StoredRows(username, a + b, b64decode)| <= |a + b|;
  }

  /** The two batch policies side by side: for the same payload, an item that
      fails to decode is dropped by the upload route but fails the video job. */
  lemma BatchPolicies(payload: string, user: Option<string>, audioFilename: string, durationPerImage: int, timestamp: nat, media: Media, i: nat)
    requires ParseItems(payload).Success? && LoggedIn(user)
    requires i < |Items(payload)| && media.b64decode(StripEnvelope(Items(payload)[i])).None?
    ensures Upload(Some(payload), user, media.b64decode).Saved?
    ensures |Upload(Some(payload), user, media.b64decode).rows| < |Items(payload)|
    ensures VideoCreator(audioFilename, payload, durationPerImage, timestamp, media).Failure?
  {
    var items := Items(payload);
    BadItemShrinksBatch(user.value, items, media.b64decode, i);
    assert ClipGenerator(Some(items[i]), ScreenWidth, durationPerImage, media) == Failure(Base64DecodeFailed);
    BadItemFailsJob(audioFilename, payload, durationPerImage, timestamp, media, i);
  }

  /** One photo row as `gallery` reads it. */
  datatype GalleryRow = GalleryRow(id: int, photo: Option<Bytes>)
  /** One image as `gallery` hands it to the template. */
  datatype GalleryImage = GalleryImage(id: int, dataUri: string)

  /** `image` shows the photo of one of `rows`: it carries that row's id and
      its data URI wraps the encoding of that row's bytes. */
  ghost predicate ShownFrom(rows: seq<GalleryRow>, image: GalleryImage, b64encode: Bytes -> string) {
    exists j :: 0 <= j < |rows| && rows[j].id == image.id && rows[j].photo.Some? &&
                StripEnvelope(image.dataUri) == b64encode(rows[j].photo.value)
  }

  /** Images shown from the rows after the first are shown from all rows. */
  lemma ShownFromRest(rows: seq<GalleryRow>, rest: seq<GalleryImage>, b64encode: Bytes -> string)
    requires |rows| > 0
    requires forall k :: 0 <= k < |rest| ==> ShownFrom(rows[1..], rest[k], b64encode)
    ensures forall k :: 0 <= k < |rest| ==> ShownFrom(rows, rest[k], b64encode)
  {
    forall k | 0 <= k < |rest| ensures ShownFrom(rows, rest[k], b64encode) {
      var j :| 0 <= j < |rows[1..]| && rows[1..][j].id == rest[k].id && rows[1..][j].photo.Some? &&
               StripEnvelope(rest[k].dataUri) == b64encode(rows[1..][j].photo.value);
      assert rows[j + 1] == rows[1..][j];
    }
  }

  /** The images of the first row are shown from the rows, by row 0. */
  lemma ShownFromFirst(rows: seq<GalleryRow>, b64encode: Bytes -> string)
    requires |rows| > 0
    ensures forall k :: 0 <= k < |ImagesFor(rows[0], b64encode)| ==> ShownFrom(rows, ImagesFor(rows[0], b64encode)[k], b64encode)
  {
    var head := ImagesFor(rows[0], b64encode);
    forall k | 0 <= k < |head| ensures ShownFrom(rows, head[k], b64encode) {
      assert rows[0].id == head[k].id && rows[0].photo.Some? &&
             StripEnvelope(head[k].dataUri) == b64encode(rows[0].photo.value);
    }
  }

  /** The image list of `gallery`: rows without a photo are skipped, every
      other row becomes a data URI around the base64 encoding of its bytes. */
  function Gallery(rows: seq<GalleryRow>, b64encode: Bytes -> string): (images: seq<GalleryImage>)
    ensures |images| <= |rows|
    ensures forall k :: 0 <= k < |images| ==>
              StartsWith(images[k].dataUri, PngDataUriPrefix) && ShownFrom(rows, images[k], b64encode)
    decreases |rows|
  {
    if |rows| == 0 then []
    else
      var rest := Gallery(rows[1..], b64encode);
      ShownFromRest(rows, rest, b64encode);
      ShownFromFirst(rows, b64encode);
      ImagesFor(rows[0], b64encode) + rest
  }

  /** The images one row contributes: none when it has no photo, else one. */
  function ImagesFor(row: GalleryRow, b64encode: Bytes -> string): (images: seq<GalleryImage>)
    ensures row.photo.None? ==> images == []
    ensures row.photo.Some? ==> images == [GalleryImage(row.id, DataUri(b64encode(row.photo.value)))]
    ensures forall k :: 0 <= k < |images| ==>
              StartsWith(images[k].dataUri, PngDataUriPrefix) && images[k].id == row.id && row.photo.Some? &&
              StripEnvelope(images[k].dataUri) == b64encode(row.photo.value)
  {
    match row.photo
    case None => []
    case Some(blob) =>
      StripDataUri(b64encode(blob));
      assert DataUri(b64encode(blob))[..|PngDataUriPrefix|] == PngDataUriPrefix;
      [GalleryImage(row.id, DataUri(b64encode(blob)))]
  }

  /** The loop over rows keeps their order: the images of a concatenation
      are the images of its halves, one after the other. */
  lemma {:induction false} GalleryAppend(a: seq<GalleryRow>, b: seq<GalleryRow>, b64encode: Bytes -> string)
    ensures Gallery(a + b, b64encode) == Gallery(a, b64encode) + Gallery(b, b64encode)
    decreases |a|
  {
    if |a| == 0 {
      assert a + b == b;
    } else {
      assert (a + b)[0] == a[0];
      assert (a + b)[1..] == a[1..] + b;
      GalleryAppend(a[1..], b, b64encode);
    }
  }

  /** One row gives its image when it holds a photo and nothing otherwise. */
  lemma GalleryOfOne(row: GalleryRow, b64encode: Bytes -> string)
    ensures row.photo.None? ==> Gallery([row], b64encode) == []
    ensures row.photo.Some? ==> Gallery([row], b64encode) == [GalleryImage(row.id, DataUri(b64encode(row.photo.value)))]
  {
    assert [row][1..] == [];
  }

  /** Every row that holds a photo, whatever the other rows hold, is shown. */
  lemma {:induction false} GalleryKeepsEveryPhoto(rows: seq<GalleryRow>, b64encode: Bytes -> string, j: nat)
    requires j < |rows| && rows[j].photo.Some?
    ensures GalleryImage(rows[j].id, DataUri(b64encode(rows[j].photo.value))) in Gallery(rows, b64encode)
    decreases j
  {
    var head := ImagesFor(rows[0], b64encode);
    var rest := Gallery(rows[1..], b64encode);
    assert Gallery(rows, b64encode) == head + rest;
    if j == 0 {
      assert (head + rest)[0] == head[0];
    } else {
      assert rows[1..][j - 1] == rows[j];
      GalleryKeepsEveryPhoto(rows[1..], b64encode, j - 1);
    }
  }

  /** Every row that holds a photo, even an empty one, is shown, in the
      order the rows were read. */
  lemma {:induction false} GalleryShowsEveryPhoto(rows: seq<GalleryRow>, b64encode: Bytes -> string)
    requires forall j :: 0 <= j < |rows| ==> rows[j].photo.Some?
    ensures |Gallery(rows, b64encode)| == |rows|
    ensures forall k :: 0 <= k < |rows| ==>
              Gallery(rows, b64encode)[k] == GalleryImage(rows[k].id, DataUri(b64encode(rows[k].photo.value)))
    decreases |rows|
  {
    if |rows| > 0 {
      GalleryShowsEveryPhoto(rows[1..], b64encode);
      var g := Gallery(rows, b64encode);
      var rest := Gallery(rows[1..], b64encode);
      assert g == [GalleryImage(rows[0].id, DataUri(b64encode(rows[0].photo.value)))] + rest;
      forall k | 0 < k < |rows|
        ensures g[k] == GalleryImage(rows[k].id, DataUri(b64encode(rows[k].photo.value)))
      {
        assert g[k] == rest[k - 1];
        assert rows[1..][k - 1] == rows[k];
      }
    }
  }

  /** The blobs `create_video` keeps: `if blob:` drops missing and empty photos. */
  function KeptBlobs(rows: seq<Option<Bytes>>): (blobs: seq<Bytes>)
    ensures |blobs| <= |rows|
    ensures forall k :: 0 <= k < |blobs| ==> |blobs[k]| > 0 && Some(blobs[k]) in rows
    ensures forall j :: 0 <= j < |rows| && rows[j].Some? && |rows[j].value| > 0 ==> rows[j].value in blobs
    decreases |rows|
  {
    if |rows| == 0 then []
    else
      var rest := KeptBlobs(rows[1..]);
      assert forall k :: 0 <= k < |rest| ==> Some(rest[k]) in rows by {
        forall k | 0 <= k < |rest| ensures Some(rest[k]) in rows {
          var j :| 0 <= j < |rows[1..]| && rows[1..][j] == Some(rest[k]);
          assert rows[j + 1] == Some(rest[k]);
        }
      }
      assert forall j :: 1 <= j < |rows| && rows[j].Some? && |rows[j].value| > 0 ==> rows[j].value in rest by {
        forall j | 1 <= j < |rows| && rows[j].Some? && |rows[j].value| > 0 ensures rows[j].value in rest {
          assert rows[1..][j - 1] == rows[j];
        }
      }
      if rows[0].Some? && |rows[0].value| > 0 then [rows[0].value] + rest else rest
  }

  /** The loop over rows keeps their order: the blobs kept from a
      concatenation are those kept from its halves, one after the other. */
  lemma {:induction false} KeptBlobsAppend(a: seq<Option<Bytes>>, b: seq<Option<Bytes>>)
    ensures KeptBlobs(a + b) == KeptBlobs(a) + KeptBlobs(b)
    decreases |a|
  {
    if |a| == 0 {
      assert a + b == b;
    } else {
      assert (a + b)[0] == a[0];
      assert (a + b)[1..] == a[1..] + b;
      KeptBlobsAppend(a[1..], b);
    }
  }

  /** One row keeps its photo exactly when the photo is present and non-empty. */
  lemma KeptBlobsOfOne(row: Option<Bytes>)
    ensures row.Some? && |row.value| > 0 ==> KeptBlobs([row]) == [row.value]
    ensures row.None? || |row.value| == 0 ==> KeptBlobs([row]) == []
  {
    assert [row][1..] == [];
  }

  /** `image_data` of `create_video`: the data URI of every kept blob. */
  function ImageData(rows: seq<Option<Bytes>>, b64encode: Bytes -> string): (uris: seq<string>)
    ensures |uris| == |KeptBlobs(rows)|
    ensures forall k :: 0 <= k < |uris| ==> uris[k] == DataUri(b64encode(KeptBlobs(rows)[k]))
  {
    var blobs := KeptBlobs(rows);
    DataUris(seq(|blobs|, k requires 0 <= k < |blobs| => b64encode(blobs[k])))
  }

  datatype CreateOutcome =
    | VideoNeedsLogin      // no user in the session
    | NoImagesSelected     // the form selected no image
    | NoValidImagesFound   // none of the selected rows holds a non-empty photo
    | VideoFailed(error: JobError)
    | Created(rendering: Rendering)

  /** `create_video`: check the session and the selection, build the data
      URIs of the selected photos, join them with `$` and run the job. The
      form's defaults apply when a field is absent. */
  function CreateVideo(user: Option<string>, selected: seq<string>, rows: seq<Option<Bytes>>,
                       audioField: Option<string>, durationField: Option<int>, timestamp: nat,
                       media: Media, b64encode: Bytes -> string): (r: CreateOutcome)
    ensures r == VideoNeedsLogin <==> !LoggedIn(user)
    ensures r == NoImagesSelected <==> LoggedIn(user) && |selected| == 0
    ensures r == NoValidImagesFound <==> LoggedIn(user) && |selected| > 0 && |KeptBlobs(rows)| == 0
    ensures r.Created? ==> r.rendering.name == OutputName(timestamp)
  {
    if !LoggedIn(user) then VideoNeedsLogin
    else if |selected| == 0 then NoImagesSelected
    else
      var imageData := ImageData(rows, b64encode);
      if |imageData| == 0 then NoValidImagesFound
      else
        var audioFile := AudioFileOf(audioField);
        var duration := DurationOf(durationField);
        match VideoCreator(audioFile, Join(imageData, Separator), duration, timestamp, media)
        case Failure(e) => VideoFailed(e)
        case Success(rendering) => Created(rendering)
  }

  /** The audio file used when the form names none. */
  const DefaultAudioFile: string := "default.mp3"

  /** The form's `audio_file`, or the default when it is absent. */
  function AudioFileOf(audioField: Option<string>): string {
    match audioField
    case None => DefaultAudioFile
    case Some(a) => a
  }

  /** The form's `duration`, or the default when it is absent. */
  function DurationOf(durationField: Option<int>): int {
    match durationField
    case None => DefaultDurationPerImage
    case Some(d) => d
  }

  /** Once the session and the selection pass and some photo is kept,
      `create_video` reports exactly what the job returns. */
  lemma CreateVideoRunsJob(user: Option<string>, selected: seq<string>, rows: seq<Option<Bytes>>,
                           audioField: Option<string>, durationField: Option<int>, timestamp: nat,
                           media: Media, b64encode: Bytes -> string)
    requires LoggedIn(user) && |selected| > 0 && |KeptBlobs(rows)| > 0
    ensures var job := VideoCreator(AudioFileOf(audioField),
                                    Join(ImageData(rows, b64encode), Separator),
                                    DurationOf(durationField),
                                    timestamp, media);
            CreateVideo(user, selected, rows, audioField, durationField, timestamp, media, b64encode) ==
            (if job.Success? then Created(job.value) else VideoFailed(job.error))
  {
  }

  /** End to end through create_video: with an encoder that emits base64
      text and a decoder that inverts it, the payload always parses, and a
      created video shows exactly the kept photos, in the order the rows
      were read, each for the requested duration. */
  lemma CreateVideoShowsKeptPhotos(user: Option<string>, selected: seq<string>, rows: seq<Option<Bytes>>,
                                   audioField: Option<string>, durationField: Option<int>, timestamp: nat,
                                   media: Media, b64encode: Bytes -> string)
    requires forall b: Bytes :: IsBase64Text(b64encode(b))
    requires forall b: Bytes :: media.b64decode(b64encode(b)) == Some(b)
    ensures CreateVideo(user, selected, rows, audioField, durationField, timestamp, media, b64encode).VideoFailed? ==>
              !CreateVideo(user, selected, rows, audioField, durationField, timestamp, media, b64encode).error.Parse?
    ensures CreateVideo(user, selected, rows, audioField, durationField, timestamp, media, b64encode).Created? ==>
              var clips := CreateVideo(user, selected, rows, audioField, durationField, timestamp, media, b64encode).rendering.clips;
              && |clips| == |KeptBlobs(rows)|
              && forall k :: 0 <= k < |clips| ==>
                   clips[k].image == KeptBlobs(rows)[k] &&
                   clips[k].duration == DurationOf(durationField)
  {
    if LoggedIn(user) && |selected| > 0 && |KeptBlobs(rows)| > 0 {
      var blobs := KeptBlobs(rows);
      var encs := seq(|blobs|, k requires 0 <= k < |blobs| => b64encode(blobs[k]));
      var audioFile := AudioFileOf(audioField);
      var duration := DurationOf(durationField);
      CreateVideoRunsJob(user, selected, rows, audioField, durationField, timestamp, media, b64encode);
      assert ImageData(rows, b64encode) == DataUris(encs);
      JobOnDataUris(audioFile, encs, duration, timestamp, media);
      var job := VideoCreator(audioFile, Join(DataUris(encs), Separator), duration, timestamp, media);
      if job.Success? {
        var clips := job.value.clips;
        forall k | 0 <= k < |clips| ensures clips[k].image == blobs[k] {
          assert media.b64decode(encs[k]) == Some(blobs[k]);
        }
      }
    }
  }

  /** Under the same codec assumptions, `create_video` produces a video
      exactly when the session and the selection pass, some photo is kept,
      the audio file exists and loads, every kept photo reads as an image,
      the soundtrack fits the video's length, and the file is written. */
  lemma CreateVideoSucceedsWhen(user: Option<string>, selected: seq<string>, rows: seq<Option<Bytes>>,
                                audioField: Option<string>, durationField: Option<int>, timestamp: nat,
                                media: Media, b64encode: Bytes -> string)
    requires forall b: Bytes :: IsBase64Text(b64encode(b))
    requires forall b: Bytes :: media.b64decode(b64encode(b)) == Some(b)
    ensures CreateVideo(user, selected, rows, audioField, durationField, timestamp, media, b64encode).Created? <==>
              && LoggedIn(user) && |selected| > 0 && |KeptBlobs(rows)| > 0
              && media.fileExists(AudioPath(AudioFileOf(audioField)))
              && (forall k :: 0 <= k < |KeptBlobs(rows)| ==> media.imread(KeptBlobs(rows)[k]))
              && media.audioLength(AudioPath(AudioFileOf(audioField))).Some?
              && SyncAudio(DurationOf(durationField) * |KeptBlobs(rows)|,
                           media.audioLength(AudioPath(AudioFileOf(audioField))).value).Success?
              && media.writeVideo(PathJoin(VideoDir, OutputName(timestamp)))
  {
    if LoggedIn(user) && |selected| > 0 && |KeptBlobs(rows)| > 0 {
      var blobs := KeptBlobs(rows);
      var encs := seq(|blobs|, k requires 0 <= k < |blobs| => b64encode(blobs[k]));
      CreateVideoRunsJob(user, selected, rows, audioField, durationField, timestamp, media, b64encode);
      assert ImageData(rows, b64encode) == DataUris(encs);
      JobSucceedsWhen(AudioFileOf(audioField), encs, blobs, DurationOf(durationField), timestamp, media);
    }
  }
}

=== FILE: slideshow.dfy ===
/** The slideshow job of app.py: `clipGenerator` turns one item into a timed
    image clip, `VideoCreator` validates its inputs, builds one clip per
    item, loops and trims the audio to the video length and names the
    output file. The media libraries, the file system and the clock are
    parameters. */
module Slideshow {
  import opened Results
  import opened Text
  import opened Payload

  type Bytes = seq<bv8>

  /** The width of `SCREEN_SIZE`; its height plays no part, as clips are
      resized to the width only. */
  const ScreenWidth: nat := 1920
  /** Encoding parameters passed to `write_videofile`. */
  const FramesPerSecond: nat := 24
  const VideoCodec: string := "libx264"
  const AudioCodec: string := "aac"
  /** The default display time of one image, in seconds. */
  const DefaultDurationPerImage: int := 3

  /** `os.path.join("static", "audio")` and `os.path.join("static", "videos")`. */
  const AudioDir: string := "static/audio"
  const VideoDir: string := "static/videos"
  const OutputPrefix: string := "slideshow_"
  const OutputSuffix: string := ".mp4"

  /** What the job learns from the libraries and the file system it calls:
      - `b64decode`: `base64.b64decode`, `None` when it raises;
      - `imread`: whether `imageio.imread` reads the bytes as an image;
      - `audioLength`: `AudioFileClip(path).duration`, `None` when loading raises;
      - `fileExists`: `os.path.exists`;
      - `writeVideo`: whether `write_videofile` succeeds at the given path. */
  datatype Media = Media(
    b64decode: string -> Option<Bytes>,
    imread: Bytes -> bool,
    audioLength: string -> Option<real>,
    fileExists: string -> bool,
    writeVideo: string -> bool)

  /** An image clip: the decoded picture, centred, resized to `width`, shown
      for `duration` seconds. */
  datatype Clip = Clip(image: Bytes, width: nat, duration: int)

  datatype ClipError =
    | EmptyBase64          // the item is None
    | Base64DecodeFailed   // b64decode raised
    | ImageReadFailed      // imread raised

  /** `clipGenerator`: refuse a missing item, strip the envelope, decode the
      base64 text, read the image, and time the clip. */
  function ClipGenerator(item: Option<string>, screenWidth: nat, clipDuration: int, media: Media): (r: Result<Clip, ClipError>)
    ensures r == Failure(EmptyBase64) <==> item.None?
    ensures r == Failure(Base64DecodeFailed) <==> item.Some? && media.b64decode(StripEnvelope(item.value)).None?
    ensures r.Success? <==>
              item.Some? && media.b64decode(StripEnvelope(item.value)).Some? &&
              media.imread(media.b64decode(StripEnvelope(item.value)).value)
    ensures r.Success? ==>
              Some(r.value.image) == media.b64decode(StripEnvelope(item.value)) &&
              r.value.width == screenWidth && r.value.duration == clipDuration
  {
    match item
    case None => Failure(EmptyBase64)
    case Some(s) =>
      match media.b64decode(StripEnvelope(s))
      case None => Failure(Base64DecodeFailed)
      case Some(raw) =>
        if !media.imread(raw) then Failure(ImageReadFailed)
        else Success(Clip(raw, screenWidth, clipDuration))
  }

  /** A clip built from a server-made data URI decodes exactly the base64
      text inside it. */
  lemma ClipOfDataUri(b64: string, clipDuration: int, media: Media)
    ensures ClipGenerator(Some(DataUri(b64)), ScreenWidth, clipDuration, media).Success? ==>
              Some(ClipGenerator(Some(DataUri(b64)), ScreenWidth, clipDuration, media).value.image) == media.b64decode(b64)
  {
    StripDataUri(b64);
  }

  /** `i` is the first item `clipGenerator` rejects, and it fails with `e`. */
  ghost predicate FirstFailure(items: seq<string>, clipDuration: int, media: Media, i: int, e: ClipError) {
    && 0 <= i < |items|
    && ClipGenerator(Some(items[i]), ScreenWidth, clipDuration, media) == Failure(e)
    && forall j :: 0 <= j < i ==> ClipGenerator(Some(items[j]), ScreenWidth, clipDuration, media).Success?
  }

  /** What the clip loop promises of its result `r` on `items`: success
      exactly when every item yields a clip, and then one clip per item in
      order; otherwise the error of the first item that fails. */
  ghost predicate BuildsClips(items: seq<string>, clipDuration: int, media: Media, r: Result<seq<Clip>, ClipError>) {
    && (r.Success? <==> forall i :: 0 <= i < |items| ==> ClipGenerator(Some(items[i]), ScreenWidth, clipDuration, media).Success?)
    && (r.Success? ==> |r.value| == |items|)
    && (r.Success? ==>
          forall i :: 0 <= i < |items| ==> ClipGenerator(Some(items[i]), ScreenWidth, clipDuration, media) == Success(r.value[i]))
    && (r.Failure? ==> exists i :: FirstFailure(items, clipDuration, media, i, r.error))
  }

  /** The first failing item of the rest, shifted by one, is the first
      failing item of all items when the first item yields a clip. */
  lemma FirstFailureShift(items: seq<string>, clipDuration: int, media: Media, k: int, e: ClipError)
    requires |items| > 0 && ClipGenerator(Some(items[0]), ScreenWidth, clipDuration, media).Success?
    requires FirstFailure(items[1..], clipDuration, media, k, e)
    ensures FirstFailure(items, clipDuration, media, k + 1, e)
  {
    assert items[k + 1] == items[1..][k];
    forall j | 1 <= j < k + 1 ensures ClipGenerator(Some(items[j]), ScreenWidth, clipDuration, media).Success? {
      assert items[j] == items[1..][j - 1];
    }
  }

  /** Every item yields a clip exactly when the first does and every later one does. */
  lemma AllClipsSplit(items: seq<string>, clipDuration: int, media: Media)
    requires |items| > 0
    ensures (forall i :: 0 <= i < |items| ==> ClipGenerator(Some(items[i]), ScreenWidth, clipDuration, media).Success?) <==>
            ClipGenerator(Some(items[0]), ScreenWidth, clipDuration, media).Success? &&
            forall i :: 0 <= i < |items[1..]| ==> ClipGenerator(Some(items[1..][i]), ScreenWidth, clipDuration, media).Success?
  {
    forall i | 1 <= i < |items| ensures items[i] == items[1..][i - 1] { }
  }

  /** The clip of the first item followed by the clips of the rest are
      the clips of all items. */
  lemma ClipsCons(items: seq<string>, clipDuration: int, media: Media, c: Clip, cs: seq<Clip>)
    requires |items| > 0 && ClipGenerator(Some(items[0]), ScreenWidth, clipDuration, media) == Success(c)
    requires |cs| == |items| - 1
    requires forall i :: 0 <= i < |items[1..]| ==> ClipGenerator(Some(items[1..][i]), ScreenWidth, clipDuration, media) == Success(cs[i])
    ensures forall i :: 0 <= i < |items| ==> ClipGenerator(Some(items[i]), ScreenWidth, clipDuration, media) == Success(([c] + cs)[i])
  {
    forall i | 1 <= i < |items| ensures ClipGenerator(Some(items[i]), ScreenWidth, clipDuration, media) == Success(([c] + cs)[i]) {
      assert items[i] == items[1..][i - 1];
      assert ([c] + cs)[i] == cs[i - 1];
    }
  }

  /** The clip loop of `VideoCreator`: one clip per item in order, stopping
      at the first item `clipGenerator` rejects. */
  function BuildClips(items: seq<string>, clipDuration: int, media: Media): (r: Result<seq<Clip>, ClipError>)
    ensures BuildsClips(items, clipDuration, media, r)
    decreases |items|
  {
    if |items| == 0 then Success([])
    else
      match ClipGenerator(Some(items[0]), ScreenWidth, clipDuration, media)
      case Failure(e) =>
        assert FirstFailure(items, clipDuration, media, 0, e);
        Failure(e)
      case Success(c) =>
        var rest := BuildClips(items[1..], clipDuration, media);
        AllClipsSplit(items, clipDuration, media);
        match rest
        case Failure(e) =>
          assert exists i :: FirstFailure(items, clipDuration, media, i, e) by {
            var k :| FirstFailure(items[1..], clipDuration, media, k, e);
            FirstFailureShift(items, clipDuration, media, k, e);
          }
          Failure(e)
        case Success(cs) =>
          ClipsCons(items, clipDuration, media, c, cs);
          Success([c] + cs)
  }

  /** The length of the concatenated visual timeline: the sum of its clips. */
  function TimelineDuration(clips: seq<Clip>): int
    decreases |clips|
  {
    if |clips| == 0 then 0 else clips[0].duration + TimelineDuration(clips[1..])
  }

  /** Clips that all last `d` seconds make a timeline of `d * |clips|` seconds. */
  lemma {:induction false} UniformTimeline(clips: seq<Clip>, d: int)
    requires forall i :: 0 <= i < |clips| ==> clips[i].duration == d
    ensures TimelineDuration(clips) == d * |clips|
    decreases |clips|
  {
    if |clips| > 0 {
      UniformTimeline(clips[1..], d);
    }
  }

  /** Python's `math.ceil` on an exact real: the least integer not below `x`. */
  function Ceil(x: real): (n: int)
    ensures n as real >= x && (n - 1) as real < x
  {
    if x.Floor as real == x then x.Floor else x.Floor + 1
  }

  /** `math.ceil(video_duration / audio_duration)`. */
  function RepeatCount(videoDuration: int, audioDuration: real): int
    requires audioDuration > 0.0
  {
    Ceil(videoDuration as real / audioDuration)
  }

  /** The repeat count is the least number of copies of the audio that covers
      the video. */
  lemma RepeatCountBounds(videoDuration: int, audioDuration: real)
    requires audioDuration > 0.0
    ensures RepeatCount(videoDuration, audioDuration) as real * audioDuration >= videoDuration as real
    ensures (RepeatCount(videoDuration, audioDuration) - 1) as real * audioDuration < videoDuration as real
  {
    var n := RepeatCount(videoDuration, audioDuration);
    var q := videoDuration as real / audioDuration;
    assert n == Ceil(q);
    assert q <= n as real && (n - 1) as real < q;
    assert q * audioDuration == videoDuration as real;
    MultiplyPreservesOrder(q, n as real, audioDuration);
    assert (n as real) * audioDuration >= videoDuration as real;
    MultiplyPreservesStrictOrder((n - 1) as real, q, audioDuration);
    assert ((n - 1) as real) * audioDuration < videoDuration as real;
  }

  lemma MultiplyPreservesOrder(x: real, y: real, k: real)
    requires x <= y && k > 0.0
    ensures x * k <= y * k
  {
  }

  lemma MultiplyPreservesStrictOrder(x: real, y: real, k: real)
    requires x < y && k > 0.0
    ensures x * k < y * k
  {
  }

  lemma ScalingReflectsStrictOrder(x: real, y: real, k: real)
    requires k > 0.0
    ensures x * k < y * k ==> x < y
  {
    if y <= x {
      MultiplyPreservesOrder(y, x, k);
    }
  }

  /** A video no longer than the audio track plays the track once, trimmed. */
  lemma RepeatCountOfShortVideo(videoDuration: int, audioDuration: real)
    requires 0 < videoDuration && videoDuration as real <= audioDuration
    ensures RepeatCount(videoDuration, audioDuration) == 1
  {
    var n := RepeatCount(videoDuration, audioDuration);
    RepeatCountBounds(videoDuration, audioDuration);
    assert ((n - 1) as real) * audioDuration < 1.0 * audioDuration;
    ScalingReflectsStrictOrder((n - 1) as real, 1.0, audioDuration);
    assert 0.0 * audioDuration < (n as real) * audioDuration;
    ScalingReflectsStrictOrder(0.0, n as real, audioDuration);
  }

  /** An audio clip as far as the job is concerned: its length in seconds. */
  datatype AudioClip = AudioClip(length: real)

  /** `concatenate_audioclips([clip] * n)`. */
  function Concatenate(clip: AudioClip, n: nat): AudioClip {
    AudioClip(n as real * clip.length)
  }

  /** `clip.subclip(start, end)`, which the library refuses beyond the clip's end. */
  function Subclip(clip: AudioClip, start: real, end: real): AudioClip
    requires 0.0 <= start <= end <= clip.length
  {
    AudioClip(end - start)
  }

  /** The sound of the finished video. */
  datatype Soundtrack =
    | Silent                                    // set_audio(None)
    | Looped(audio: AudioClip, repeatCount: nat) // the trimmed loop and how many copies it joined

  datatype JobError =
    | Parse(parseError: ParseError)
    | AudioNotFound(path: string)   // FileNotFoundError
    | ClipFailed(clipError: ClipError)  // ValueError from clipGenerator
    | AudioUnreadable               // AudioFileClip raised
    | EmptyAudioLoop                // concatenate_audioclips of zero copies raises
    | WriteFailed(path: string)     // write_videofile raised

  /** The audio step: no audio when the track has no positive length;
      otherwise `ceil(video / audio)` copies joined and cut to
      `[0, video_duration]`. The library cannot join zero copies, which is
      what a non-positive video length asks for. */
  function SyncAudio(videoDuration: int, audioDuration: real): (r: Result<Soundtrack, JobError>)
    ensures r == Success(Silent) <==> audioDuration <= 0.0
    ensures r == Failure(EmptyAudioLoop) <==> audioDuration > 0.0 && videoDuration <= 0
    ensures r.Failure? <==> audioDuration > 0.0 && videoDuration <= 0
    ensures audioDuration > 0.0 && videoDuration > 0 ==> r.Success? && r.value.Looped?
    ensures r.Success? && r.value.Looped? ==>
              && r.value.audio.length == videoDuration as real
              && r.value.repeatCount as real * audioDuration >= videoDuration as real
              && (r.value.repeatCount - 1) as real * audioDuration < videoDuration as real
    ensures r.Success? && r.value.Looped? && videoDuration as real <= audioDuration ==> r.value.repeatCount == 1
  {
    if audioDuration <= 0.0 then Success(Silent)
    else
      var n := RepeatCount(videoDuration, audioDuration);
      RepeatCountBounds(videoDuration, audioDuration);
      if n < 1 then
        assert videoDuration <= 0 by {
          MultiplyPreservesOrder(n as real, 0.0, audioDuration);
        }
        Failure(EmptyAudioLoop)
      else
        assert videoDuration > 0 by {
          MultiplyPreservesOrder(0.0, (n - 1) as real, audioDuration);
        }
        assert videoDuration as real <= audioDuration ==> n == 1 by {
          if videoDuration as real <= audioDuration {
            RepeatCountOfShortVideo(videoDuration, audioDuration);
          }
        }
        var looped := Concatenate(AudioClip(audioDuration), n);
        Success(Looped(Subclip(looped, 0.0, videoDuration as real), n))
  }

  /** Three images of 3 seconds over a 2.5-second track: a 9-second video,
      four copies of the track, cut to 9 seconds. */
  lemma NineSecondsOverShortTrack()
    ensures SyncAudio(3 * 3, 2.5) == Success(Looped(AudioClip(9.0), 4))
  {
    assert 9.0 / 2.5 == 3.6;
    assert Ceil(3.6) == 4;
  }

  /** `f"slideshow_{timestamp}.mp4"`. */
  function OutputName(timestamp: nat): string {
    OutputPrefix + Decimal(timestamp) + OutputSuffix
  }

  /** Distinct timestamps give distinct names; calls within the same second
      get the same name. */
  lemma OutputNameInjective(a: nat, b: nat)
    ensures OutputName(a) == OutputName(b) <==> a == b
  {
    if OutputName(a) == OutputName(b) {
      var na := OutputName(a);
      var nb := OutputName(b);
      assert na[|OutputPrefix|..|na| - |OutputSuffix|] == Decimal(a);
      assert nb[|OutputPrefix|..|nb| - |OutputSuffix|] == Decimal(b);
      DecimalInjective(a, b);
    }
  }

  /** The name holds no `/`, so it is the basename of the path it is written to. */
  lemma OutputPathBasename(timestamp: nat)
    ensures PathJoin(VideoDir, OutputName(timestamp)) == "static/videos/" + OutputName(timestamp)
    ensures Basename(PathJoin(VideoDir, OutputName(timestamp))) == OutputName(timestamp)
  {
    var name := OutputName(timestamp);
    var digits := Decimal(timestamp);
    assert '/' !in digits by {
      forall k | 0 <= k < |digits| ensures digits[k] != '/' {
        assert '0' <= digits[k] <= '9';
      }
    }
    assert '/' !in OutputPrefix && '/' !in OutputSuffix;
    assert '/' !in name;
    assert name[0] == 's';
    assert VideoDir[|VideoDir| - 1] == 's';
    BasenameOfJoin(VideoDir, name);
  }

  /** `os.path.join("static", "audio", audio_filename)`. */
  function AudioPath(audioFilename: string): string {
    PathJoin(AudioDir, audioFilename)
  }

  /** The settings `write_videofile` is called with. */
  datatype WriteSettings = WriteSettings(fps: nat, videoCodec: string, audioCodec: string)

  const JobWriteSettings: WriteSettings := WriteSettings(FramesPerSecond, VideoCodec, AudioCodec)

  /** What one successful run produced: the clips in order, the video length
      computed by the job, the soundtrack, the path written, the settings
      it was written with and the name returned to the caller. */
  datatype Rendering = Rendering(
    clips: seq<Clip>,
    videoDuration: int,
    soundtrack: Soundtrack,
    outputPath: string,
    settings: WriteSettings,
    name: string)

  /** `VideoCreator`: the payload checks, then the audio file check, then the
      clips, the audio, and the write. The first failing step decides the
      error. */
  function VideoCreator(audioFilename: string, vdlLinks: string, durationPerImage: int, timestamp: nat, media: Media): (r: Result<Rendering, JobError>)
    ensures vdlLinks == "" ==> r == Failure(Parse(NoImageLinks))
    ensures ParseItems(vdlLinks).Failure? ==> r == Failure(Parse(ParseItems(vdlLinks).error))
    ensures r.Failure? && r.error.Parse? ==> ParseItems(vdlLinks).Failure?
    ensures ParseItems(vdlLinks).Success? && !media.fileExists(AudioPath(audioFilename)) ==>
              r == Failure(AudioNotFound(AudioPath(audioFilename)))
    ensures r.Success? ==>
              && media.fileExists(AudioPath(audioFilename))
              && BuildClips(Items(vdlLinks), durationPerImage, media) == Success(r.value.clips)
              && |r.value.clips| == |Items(vdlLinks)|
              && r.value.videoDuration == durationPerImage * |Items(vdlLinks)|
              && TimelineDuration(r.value.clips) == r.value.videoDuration
              && r.value.name == OutputName(timestamp)
              && Basename(r.value.outputPath) == r.value.name
              && (r.value.soundtrack.Looped? ==> r.value.soundtrack.audio.length == r.value.videoDuration as real)
    // the soundtrack follows the loaded audio, and the file goes under static/videos
    ensures r.Success? ==>
              && media.audioLength(AudioPath(audioFilename)).Some?
              && Success(r.value.soundtrack) == SyncAudio(r.value.videoDuration, media.audioLength(AudioPath(audioFilename)).value)
              && (r.value.soundtrack == Silent <==> media.audioLength(AudioPath(audioFilename)).value <= 0.0)
              && r.value.outputPath == PathJoin(VideoDir, OutputName(timestamp))
              && r.value.outputPath == "static/videos/" + r.value.name
              && media.writeVideo(r.value.outputPath)
              && r.value.settings == WriteSettings(24, "libx264", "aac")
    // each later step's failure, in order
    ensures ParseItems(vdlLinks).Success? && media.fileExists(AudioPath(audioFilename)) &&
            BuildClips(Items(vdlLinks), durationPerImage, media).Failure? ==>
              r == Failure(ClipFailed(BuildClips(Items(vdlLinks), durationPerImage, media).error))
    ensures ParseItems(vdlLinks).Success? && media.fileExists(AudioPath(audioFilename)) &&
            BuildClips(Items(vdlLinks), durationPerImage, media).Success? &&
            media.audioLength(AudioPath(audioFilename)).None? ==>
              r == Failure(AudioUnreadable)
    ensures r == Failure(EmptyAudioLoop) <==>
              && ParseItems(vdlLinks).Success? && media.fileExists(AudioPath(audioFilename))
              && BuildClips(Items(vdlLinks), durationPerImage, media).Success?
              && media.audioLength(AudioPath(audioFilename)).Some?
              && media.audioLength(AudioPath(audioFilename)).value > 0.0
              && durationPerImage * |Items(vdlLinks)| <= 0
    ensures r.Failure? && r.error.WriteFailed? ==>
              r.error.path == PathJoin(VideoDir, OutputName(timestamp)) && !media.writeVideo(r.error.path)
    ensures && ParseItems(vdlLinks).Success? && media.fileExists(AudioPath(audioFilename))
            && BuildClips(Items(vdlLinks), durationPerImage, media).Success?
            && media.audioLength(AudioPath(audioFilename)).Some?
            && SyncAudio(durationPerImage * |Items(vdlLinks)|, media.audioLength(AudioPath(audioFilename)).value).Success?
            && !media.writeVideo(PathJoin(VideoDir, OutputName(timestamp))) ==>
              r == Failure(WriteFailed(PathJoin(VideoDir, OutputName(timestamp))))
    // and success whenever no step fails
    ensures && ParseItems(vdlLinks).Success? && media.fileExists(AudioPath(audioFilename))
            && BuildClips(Items(vdlLinks), durationPerImage, media).Success?
            && media.audioLength(AudioPath(audioFilename)).Some?
            && SyncAudio(durationPerImage * |Items(vdlLinks)|, media.audioLength(AudioPath(audioFilename)).value).Success?
            && media.writeVideo(PathJoin(VideoDir, OutputName(timestamp))) ==>
              r.Success?
  {
    match ParseItems(vdlLinks)
    case Failure(e) => Failure(Parse(e))
    case Success(items) =>
      var audioPath := AudioPath(audioFilename);
      if !media.fileExists(audioPath) then Failure(AudioNotFound(audioPath))
      else
        match BuildClips(items, durationPerImage, media)
        case Failure(e) => Failure(ClipFailed(e))
        case Success(clips) =>
          UniformTimeline(clips, durationPerImage);
          match media.audioLength(audioPath)
          case None => Failure(AudioUnreadable)
          case Some(audioDuration) =>
            var videoDuration := durationPerImage * |items|;
            match SyncAudio(videoDuration, audioDuration)
            case Failure(e) => Failure(e)
            case Success(sound) =>
              var name := OutputName(timestamp);
              var path := PathJoin(VideoDir, name);
              OutputPathBasename(timestamp);
              if !media.writeVideo(path) then Failure(WriteFailed(path))
              else Success(Rendering(clips, videoDuration, sound, path, JobWriteSettings, name))
  }

  /** Both validation steps come before any clip work: when the payload is
      rejected or the audio file is missing, the codec and image reader
      play no part in the outcome. */
  lemma ValidationPrecedesClipWork(audioFilename: string, vdlLinks: string, durationPerImage: int, timestamp: nat, m1: Media, m2: Media)
    requires m1.fileExists(AudioPath(audioFilename)) == m2.fileExists(AudioPath(audioFilename))
    requires ParseItems(vdlLinks).Failure? || !m1.fileExists(AudioPath(audioFilename))
    ensures VideoCreator(audioFilename, vdlLinks, durationPerImage, timestamp, m1) ==
            VideoCreator(audioFilename, vdlLinks, durationPerImage, timestamp, m2)
    ensures VideoCreator(audioFilename, vdlLinks, durationPerImage, timestamp, m1).Failure?
  {
  }

  /** The job is strict: once the payload and the audio file pass, the first
      item that `clipGenerator` rejects fails the whole job with that item's
      error. */
  lemma FirstBadItemFailsJob(audioFilename: string, vdlLinks: string, durationPerImage: int, timestamp: nat, media: Media, i: nat)
    requires ParseItems(vdlLinks).Success? && media.fileExists(AudioPath(audioFilename))
    requires i < |Items(vdlLinks)|
    requires ClipGenerator(Some(Items(vdlLinks)[i]), ScreenWidth, durationPerImage, media).Failure?
    requires forall j :: 0 <= j < i ==> ClipGenerator(Some(Items(vdlLinks)[j]), ScreenWidth, durationPerImage, media).Success?
    ensures VideoCreator(audioFilename, vdlLinks, durationPerImage, timestamp, media) ==
            Failure(ClipFailed(ClipGenerator(Some(Items(vdlLinks)[i]), ScreenWidth, durationPerImage, media).error))
  {
    var items := Items(vdlLinks);
    var r := BuildClips(items, durationPerImage, media);
    var k :| 0 <= k < |items| && ClipGenerator(Some(items[k]), ScreenWidth, durationPerImage, media) == Failure(r.error) &&
             forall j :: 0 <= j < k ==> ClipGenerator(Some(items[j]), ScreenWidth, durationPerImage, media).Success?;
    assert k == i;
  }

  /** Whatever the other items are, one item `clipGenerator` rejects is
      enough to fail the job. */
  lemma BadItemFailsJob(audioFilename: string, vdlLinks: string, durationPerImage: int, timestamp: nat, media: Media, i: nat)
    requires i < |Items(vdlLinks)|
    requires ClipGenerator(Some(Items(vdlLinks)[i]), ScreenWidth, durationPerImage, media).Failure?
    ensures VideoCreator(audioFilename, vdlLinks, durationPerImage, timestamp, media).Failure?
  {
    assert !BuildClips(Items(vdlLinks), durationPerImage, media).Success?;
  }

  /** Clip `k` of a finished video shows the decoded bytes of item `k`. */
  lemma ClipsShowDecodedItems(audioFilename: string, vdlLinks: string, durationPerImage: int, timestamp: nat, media: Media)
    ensures VideoCreator(audioFilename, vdlLinks, durationPerImage, timestamp, media).Success? ==>
              var clips := VideoCreator(audioFilename, vdlLinks, durationPerImage, timestamp, media).value.clips;
              forall k :: 0 <= k < |clips| ==>
                Some(clips[k].image) == media.b64decode(StripEnvelope(Items(vdlLinks)[k])) &&
                clips[k].duration == durationPerImage
  {
    var r := VideoCreator(audioFilename, vdlLinks, durationPerImage, timestamp, media);
    if r.Success? {
      var items := Items(vdlLinks);
      forall k | 0 <= k < |r.value.clips|
        ensures Some(r.value.clips[k].image) == media.b64decode(StripEnvelope(items[k])) &&
                r.value.clips[k].duration == durationPerImage
      {
        assert ClipGenerator(Some(items[k]), ScreenWidth, durationPerImage, media) == Success(r.value.clips[k]);
      }
    }
  }

  /** A job run on server-built data URIs never fails parsing, and clip `k`
      shows the decoding of the `k`-th base64 text. */
  lemma JobOnDataUris(audioFilename: string, b64s: seq<string>, durationPerImage: int, timestamp: nat, media: Media)
    requires |b64s| >= 1
    requires forall k :: 0 <= k < |b64s| ==> IsBase64Text(b64s[k])
    ensures VideoCreator(audioFilename, Join(DataUris(b64s), Separator), durationPerImage, timestamp, media).Failure? ==>
              !VideoCreator(audioFilename, Join(DataUris(b64s), Separator), durationPerImage, timestamp, media).error.Parse?
    ensures VideoCreator(audioFilename, Join(DataUris(b64s), Separator), durationPerImage, timestamp, media).Success? ==>
              var clips := VideoCreator(audioFilename, Join(DataUris(b64s), Separator), durationPerImage, timestamp, media).value.clips;
              && |clips| == |b64s|
              && forall k :: 0 <= k < |clips| ==> Some(clips[k].image) == media.b64decode(b64s[k]) && clips[k].duration == durationPerImage
  {
    var payload := Join(DataUris(b64s), Separator);
    DataUriRoundTrip(b64s);
    ClipsShowDecodedItems(audioFilename, payload, durationPerImage, timestamp, media);
    var r := VideoCreator(audioFilename, payload, durationPerImage, timestamp, media);
    if r.Success? {
      assert |r.value.clips| == |Items(payload)| == |b64s|;
      forall k | 0 <= k < |r.value.clips| ensures Some(r.value.clips[k].image) == media.b64decode(b64s[k]) {
        assert StripEnvelope(Items(payload)[k]) == b64s[k];
      }
    }
  }

  /** Every clip of server-made data URIs is built exactly when every
      photo behind them reads as an image. */
  lemma ClipsReadKeptPhotos(items: seq<string>, blobs: seq<Bytes>, encs: seq<string>, d: int, media: Media)
    requires |encs| == |blobs| && items == DataUris(encs)
    requires forall k :: 0 <= k < |encs| ==> StripEnvelope(items[k]) == encs[k]
    requires forall k :: 0 <= k < |encs| ==> media.b64decode(encs[k]) == Some(blobs[k])
    ensures BuildClips(items, d, media).Success? <==> forall k :: 0 <= k < |blobs| ==> media.imread(blobs[k])
  {
    forall k | 0 <= k < |items|
      ensures ClipGenerator(Some(items[k]), ScreenWidth, d, media).Success? <==> media.imread(blobs[k])
    {
      assert media.b64decode(StripEnvelope(items[k])) == Some(blobs[k]);
    }
  }

  /** A job run on server-built data URIs of some photos
      succeeds exactly when the audio file exists and loads, every photo
      reads as an image, the soundtrack fits, and the file is written. */
  lemma JobSucceedsWhen(audioFilename: string, b64s: seq<string>, photos: seq<Bytes>,
                        durationPerImage: int, timestamp: nat, media: Media)
    requires |b64s| >= 1 && |photos| == |b64s|
    requires forall k :: 0 <= k < |b64s| ==> IsBase64Text(b64s[k])
    requires forall k :: 0 <= k < |b64s| ==> media.b64decode(b64s[k]) == Some(photos[k])
    ensures VideoCreator(audioFilename, Join(DataUris(b64s), Separator), durationPerImage, timestamp, media).Success? <==>
              && media.fileExists(AudioPath(audioFilename))
              && (forall k :: 0 <= k < |photos| ==> media.imread(photos[k]))
              && media.audioLength(AudioPath(audioFilename)).Some?
              && SyncAudio(durationPerImage * |photos|, media.audioLength(AudioPath(audioFilename)).value).Success?
              && media.writeVideo(PathJoin(VideoDir, OutputName(timestamp)))
  {
    var payload := Join(DataUris(b64s), Separator);
    DataUriRoundTrip(b64s);
    assert Items(payload) == DataUris(b64s);
    ClipsReadKeptPhotos(Items(payload), photos, b64s, durationPerImage, media);
  }
}

=== FILE: text.dfy ===
/** The string primitives the application leans on, with Python's and
    JavaScript's semantics: `str.isspace`, `str.split(sep)`, `sep.join`,
    `Array.prototype.join`, substring search, `startsWith`, decimal
    rendering of integers and POSIX path joining. */
module Text {
  import opened Results

  /** Python's `str.isspace` on one character: the ASCII separators and the
      Unicode whitespace code points. */
  predicate IsSpace(c: char) {
    || c == ' '
    || '\t' <= c <= '\r'
    || '\U{1C}' <= c <= '\U{1F}'
    || c == '\U{85}' || c == '\U{A0}' || c == '\U{1680}'
    || '\U{2000}' <= c <= '\U{200A}'
    || c == '\U{2028}' || c == '\U{2029}' || c == '\U{202F}'
    || c == '\U{205F}' || c == '\U{3000}'
  }

  /** `s.strip()` is empty exactly when every character of `s` is whitespace. */
  predicate IsBlank(s: string) {
    forall i :: 0 <= i < |s| ==> IsSpace(s[i])
  }

  /** `sep.join(parts)` in Python and `parts.join(sep)` in JavaScript. */
  function Join(parts: seq<string>, sep: char): string
    decreases |parts|
  {
    if |parts| == 0 then ""
    else if |parts| == 1 then parts[0]
    else parts[0] + [sep] + Join(parts[1..], sep)
  }

  /** Python's `s.split(sep)` for a one-character separator: always at least
      one piece, no piece holds the separator, and the pieces joined back
      with the separator give `s`. */
  function Split(s: string, sep: char): (parts: seq<string>)
    ensures |parts| >= 1
    ensures forall i :: 0 <= i < |parts| ==> sep !in parts[i]
    ensures Join(parts, sep) == s
    decreases |s|
  {
    if |s| == 0 then [""]
    else
      var rest := Split(s[1..], sep);
      if s[0] == sep then [""] + rest
      else [[s[0]] + rest[0]] + rest[1..]
  }

  lemma {:induction false} SplitWithoutSeparator(w: string, sep: char)
    requires sep !in w
    ensures Split(w, sep) == [w]
    decreases |w|
  {
    if |w| > 0 {
      assert w[0] in w;
      assert sep !in w[1..] by {
        forall k | 0 <= k < |w[1..]| ensures w[1..][k] != sep {
          assert w[1..][k] == w[k + 1];
        }
      }
      SplitWithoutSeparator(w[1..], sep);
      assert [w[0]] + w[1..] == w;
    }
  }

  lemma {:induction false} SplitAtFirstSeparator(w: string, sep: char, t: string)
    requires sep !in w
    ensures Split(w + [sep] + t, sep) == [w] + Split(t, sep)
    decreases |w|
  {
    var s := w + [sep] + t;
    if |w| == 0 {
      assert s[0] == sep;
      assert s[1..] == t;
    } else {
      assert w[0] in w;
      assert s[0] == w[0];
      assert s[1..] == w[1..] + [sep] + t;
      assert sep !in w[1..] by {
        forall k | 0 <= k < |w[1..]| ensures w[1..][k] != sep {
          assert w[1..][k] == w[k + 1];
        }
      }
      SplitAtFirstSeparator(w[1..], sep, t);
      assert [w[0]] + w[1..] == w;
    }
  }

  /** Splitting undoes joining whenever no part holds the separator. Together
      with the last ensures of `Split` this makes the two exact inverses. */
  lemma {:induction false} SplitOfJoin(parts: seq<string>, sep: char)
    requires |parts| >= 1
    requires forall i :: 0 <= i < |parts| ==> sep !in parts[i]
    ensures Split(Join(parts, sep), sep) == parts
    decreases |parts|
  {
    if |parts| == 1 {
      SplitWithoutSeparator(parts[0], sep);
    } else {
      SplitOfJoin(parts[1..], sep);
      SplitAtFirstSeparator(parts[0], sep, Join(parts[1..], sep));
      assert [parts[0]] + parts[1..] == parts;
    }
  }

  /** `pat` occurs in `s` starting at index `i`. */
  predicate OccursAt(s: string, pat: string, i: int) {
    0 <= i && i + |pat| <= |s| && s[i..i + |pat|] == pat
  }

  /** An occurrence of a non-empty pattern begins with the pattern's first character. */
  lemma OccurrenceStartsWithHead(s: string, pat: string, i: int)
    ensures OccursAt(s, pat, i) && |pat| > 0 ==> s[i] == pat[0]
  {
    if OccursAt(s, pat, i) && |pat| > 0 {
      assert s[i..i + |pat|][0] == s[i];
    }
  }

  /** Python's `pat in s`. */
  ghost predicate Contains(s: string, pat: string) {
    exists i :: OccursAt(s, pat, i)
  }

  /** Python's `s.find(pat, start)`: the first occurrence at or after
      `start`, or `None` when there is none. */
  function FindFrom(s: string, pat: string, start: nat): (r: Option<nat>)
    requires start <= |s|
    ensures r.Some? ==> start <= r.value && OccursAt(s, pat, r.value)
    ensures r.Some? ==> forall j :: start <= j < r.value ==> !OccursAt(s, pat, j)
    ensures r.None? ==> forall j :: start <= j ==> !OccursAt(s, pat, j)
    decreases |s| - start
  {
    if OccursAt(s, pat, start) then Some(start)
    else if start == |s| then None
    else FindFrom(s, pat, start + 1)
  }

  /** The first occurrence of `pat` in `s`. */
  function Find(s: string, pat: string): (r: Option<nat>)
    ensures r.Some? <==> Contains(s, pat)
    ensures r.Some? ==> OccursAt(s, pat, r.value) && forall j :: 0 <= j < r.value ==> !OccursAt(s, pat, j)
  {
    FindFrom(s, pat, 0)
  }

  /** JavaScript's `s.startsWith(prefix)`. */
  predicate StartsWith(s: string, prefix: string) {
    |prefix| <= |s| && s[..|prefix|] == prefix
  }

  function DigitChar(d: nat): char
    requires d < 10
  {
    ['0', '1', '2', '3', '4', '5', '6', '7', '8', '9'][d]
  }

  function DigitValue(c: char): nat {
    if '0' <= c <= '9' then (c as int - '0' as int) as nat else 0
  }

  /** Python's `str(n)` / f-string rendering of a non-negative integer. */
  function Decimal(n: nat): (s: string)
    ensures |s| >= 1
    ensures forall i :: 0 <= i < |s| ==> '0' <= s[i] <= '9'
    ensures s[0] == '0' ==> n == 0
    decreases n
  {
    if n < 10 then [DigitChar(n)] else Decimal(n / 10) + [DigitChar(n % 10)]
  }

  /** Reading a string of digits back as a number (Python's `int(s)`). */
  function DecimalValue(s: string): nat
    decreases |s|
  {
    if |s| == 0 then 0 else DecimalValue(s[..|s| - 1]) * 10 + DigitValue(s[|s| - 1])
  }

  /** Rendering then reading returns the number; so the rendering is injective. */
  lemma {:induction false} DecimalRoundTrip(n: nat)
    ensures DecimalValue(Decimal(n)) == n
    decreases n
  {
    var s := Decimal(n);
    if n < 10 {
      assert s[..0] == "";
    } else {
      DecimalRoundTrip(n / 10);
      assert s[..|s| - 1] == Decimal(n / 10);
    }
  }

  lemma DecimalInjective(a: nat, b: nat)
    ensures Decimal(a) == Decimal(b) <==> a == b
  {
    DecimalRoundTrip(a);
    DecimalRoundTrip(b);
  }

  /** `posixpath.join(a, b)`: an absolute `b` replaces `a`; otherwise a `/`
      is inserted unless `a` is empty or already ends in one. */
  function PathJoin(a: string, b: string): (p: string)
    ensures StartsWith(b, "/") ==> p == b
    ensures !StartsWith(b, "/") && a != "" && a[|a| - 1] != '/' ==> p == a + "/" + b
    ensures !StartsWith(b, "/") && (a == "" || a[|a| - 1] == '/') ==> p == a + b
  {
    if StartsWith(b, "/") then b
    else if a == "" || a[|a| - 1] == '/' then a + b
    else a + "/" + b
  }

  /** `posixpath.basename(p)`: the text after the last `/`. */
  function Basename(p: string): (b: string)
    ensures '/' !in b
    ensures |b| <= |p| && p[|p| - |b|..] == b
    ensures |b| < |p| ==> p[|p| - |b| - 1] == '/'
    decreases |p|
  {
    if |p| == 0 || p[|p| - 1] == '/' then ""
    else
      var init := p[..|p| - 1];
      var b := Basename(init);
      assert p[|p| - |b| - 1..] == init[|init| - |b|..] + [p[|p| - 1]];
      assert |b| < |init| ==> p[|p| - |b| - 2] == init[|init| - |b| - 1];
      b + [p[|p| - 1]]
  }

  /** The basename of `dir/name` is `name` whenever `name` holds no `/`. */
  lemma {:induction false} BasenameOfJoin(dir: string, name: string)
    requires '/' !in name
    ensures Basename(dir + "/" + name) == name
    decreases |name|
  {
    var p := dir + "/" + name;
    if |name| == 0 {
      assert p[|p| - 1] == '/';
    } else {
      var last := name[|name| - 1];
      var init := name[..|name| - 1];
      assert last in name;
      assert p[..|p| - 1] == dir + "/" + init;
      assert '/' !in init by {
        forall k | 0 <= k < |init| ensures init[k] != '/' {
          assert init[k] == name[k];
        }
      }
      BasenameOfJoin(dir, init);
      assert init + [last] == name;
    }
  }
}

=== FILE: upload_client.dfy ===
/** The selection kept by static/js/upload.js: the chosen files, deduplicated
    by name and size, and the data URLs read from them. Picking files, a
    file read finishing, removing one preview, clearing, and submitting are
    events on an immutable state. */
module UploadClient {
  import opened Results
  import opened Lists
  import opened Text
  import opened Payload
  import opened Slideshow
  import opened Routes

  /** What the page knows of a picked file. */
  datatype File = File(name: string, size: nat, mimeType: string)

  /** `selectedFiles` and `imageDataArray`. */
  datatype Selection = Selection(selectedFiles: seq<File>, imageDataArray: seq<string>)

  const ImageTypePrefix: string := "image/"

  /** `file.type.startsWith("image/")`. */
  predicate IsImageFile(f: File) {
    StartsWith(f.mimeType, ImageTypePrefix)
  }

  /** Two files count as the same when name and size agree. */
  predicate SameEntry(f: File, g: File) {
    f.name == g.name && f.size == g.size
  }

  /** `files.find(f => f.name === file.name && f.size === file.size)` finds something. */
  predicate HasEntry(files: seq<File>, f: File) {
    exists k :: 0 <= k < |files| && SameEntry(files[k], f)
  }

  predicate NoDuplicateEntries(files: seq<File>) {
    forall i, j :: 0 <= i < j < |files| ==> !SameEntry(files[i], files[j])
  }

  /** The selection after the synchronous part of `forEach`, and the files
      whose reads were started, in order. */
  datatype Added = Added(selected: seq<File>, started: seq<File>)

  /** An entry found in a list is found in any extension of it. */
  lemma HasEntryGrows(files: seq<File>, more: seq<File>, f: File)
    ensures HasEntry(files, f) ==> HasEntry(files + more, f)
  {
    if HasEntry(files, f) {
      var k :| 0 <= k < |files| && SameEntry(files[k], f);
      assert (files + more)[k] == files[k];
    }
  }

  /** Appending a file whose entry is absent keeps the entries distinct. */
  lemma AppendNewKeepsDistinct(files: seq<File>, f: File)
    requires NoDuplicateEntries(files) && !HasEntry(files, f)
    ensures NoDuplicateEntries(files + [f])
  {
    var g := files + [f];
    forall i, j | 0 <= i < j < |g| ensures !SameEntry(g[i], g[j]) {
      if j == |files| {
        assert g[i] == files[i];
      } else {
        assert g[i] == files[i] && g[j] == files[j];
      }
    }
  }

  /** The `forEach` of `handleFiles`: a file whose name and size are already
      selected, including by an earlier file of the same batch, is skipped;
      any other file is pushed and its read started. The files pushed are
      exactly the reads started, appended in order. */
  function AddNew(selected: seq<File>, files: seq<File>): (r: Added)
    ensures r.selected == selected + r.started
    ensures |r.started| <= |files|
    decreases |files|
  {
    if |files| == 0 then Added(selected, [])
    else if HasEntry(selected, files[0]) then AddNew(selected, files[1..])
    else
      var r := AddNew(selected + [files[0]], files[1..]);
      Added(r.selected, [files[0]] + r.started)
  }

  /** The `forEach` visits the batch in order: adding `a + b` adds `a`, then
      adds `b` to the grown selection, and the reads start in that order. */
  lemma {:induction false} AddNewAppend(selected: seq<File>, a: seq<File>, b: seq<File>)
    ensures var r := AddNew(selected, a);
            var s := AddNew(r.selected, b);
            AddNew(selected, a + b) == Added(s.selected, r.started + s.started)
    decreases |a|
  {
    if |a| == 0 {
      assert a + b == b;
    } else {
      assert (a + b)[0] == a[0];
      assert (a + b)[1..] == a[1..] + b;
      if HasEntry(selected, a[0]) {
        AddNewAppend(selected, a[1..], b);
      } else {
        AddNewAppend(selected + [a[0]], a[1..], b);
        var r := AddNew(selected + [a[0]], a[1..]);
        var s := AddNew(r.selected, b);
        assert [a[0]] + (r.started + s.started) == ([a[0]] + r.started) + s.started;
      }
    }
  }

  /** One file is pushed exactly when its name and size are not selected yet. */
  lemma AddNewOfOne(selected: seq<File>, f: File)
    ensures HasEntry(selected, f) ==> AddNew(selected, [f]) == Added(selected, [])
    ensures !HasEntry(selected, f) ==> AddNew(selected, [f]) == Added(selected + [f], [f])
  {
    assert [f][1..] == [];
  }

  /** Of two files with the same name and size in one batch, the first is
      pushed and the second skipped. */
  lemma FirstOfTwinsKept(selected: seq<File>, f: File, g: File)
    requires SameEntry(f, g) && !HasEntry(selected, f)
    ensures AddNew(selected, [f, g]) == Added(selected + [f], [f])
  {
    AddNewAppend(selected, [f], [g]);
    assert [f] + [g] == [f, g];
    AddNewOfOne(selected, f);
    assert HasEntry(selected + [f], g) by {
      assert (selected + [f])[|selected|] == f;
    }
    AddNewOfOne(selected + [f], g);
  }

  /** After any add, no two selected files share a name and size. */
  lemma {:induction false} AddNewKeepsDistinct(selected: seq<File>, files: seq<File>)
    requires NoDuplicateEntries(selected)
    ensures NoDuplicateEntries(AddNew(selected, files).selected)
    decreases |files|
  {
    if |files| > 0 {
      if HasEntry(selected, files[0]) {
        AddNewKeepsDistinct(selected, files[1..]);
      } else {
        AppendNewKeepsDistinct(selected, files[0]);
        AddNewKeepsDistinct(selected + [files[0]], files[1..]);
      }
    }
  }

  /** After an add, every file of the batch has its name and size selected. */
  lemma {:induction false} AddNewCoversBatch(selected: seq<File>, files: seq<File>)
    ensures forall k :: 0 <= k < |files| ==> HasEntry(AddNew(selected, files).selected, files[k])
    decreases |files|
  {
    if |files| > 0 {
      var f := files[0];
      var rest := files[1..];
      var r := AddNew(selected, files);
      assert forall k :: 1 <= k < |files| ==> files[k] == rest[k - 1];
      if HasEntry(selected, f) {
        AddNewCoversBatch(selected, rest);
        HasEntryGrows(selected, r.started, f);
      } else {
        AddNewCoversBatch(selected + [f], rest);
        assert r.selected[|selected|] == f;
      }
    }
  }

  /** A read is started only for a file of the batch whose name and size were
      not selected before. */
  lemma {:induction false} AddNewStartsOnlyNew(selected: seq<File>, files: seq<File>)
    ensures forall k :: 0 <= k < |AddNew(selected, files).started| ==>
              AddNew(selected, files).started[k] in files && !HasEntry(selected, AddNew(selected, files).started[k])
    decreases |files|
  {
    if |files| > 0 {
      var f := files[0];
      var rest := files[1..];
      var r := AddNew(selected, files);
      if HasEntry(selected, f) {
        AddNewStartsOnlyNew(selected, rest);
      } else {
        var inner := AddNew(selected + [f], rest);
        AddNewStartsOnlyNew(selected + [f], rest);
        assert r.started == [f] + inner.started;
        forall k | 0 <= k < |r.started|
          ensures r.started[k] in files && !HasEntry(selected, r.started[k])
        {
          if k > 0 {
            var x := inner.started[k - 1];
            assert r.started[k] == x;
            HasEntryGrows(selected, [f], x);
            var j :| 0 <= j < |rest| && rest[j] == x;
            assert files[j + 1] == x;
          }
        }
      }
    }
  }

  /** A batch whose names and sizes are all selected already adds nothing. */
  lemma {:induction false} AddNewOfKnownFiles(selected: seq<File>, files: seq<File>)
    requires forall k :: 0 <= k < |files| ==> HasEntry(selected, files[k])
    ensures AddNew(selected, files) == Added(selected, [])
    decreases |files|
  {
    if |files| > 0 {
      assert HasEntry(selected, files[0]);
      assert forall k :: 1 <= k < |files| ==> files[k] == files[1..][k - 1];
      AddNewOfKnownFiles(selected, files[1..]);
    }
  }

  /** A notification shown to the user. */
  datatype Notice = SelectValidImages | SelectAtLeastOneImage

  /** The result of an event: the new selection, the file reads it started,
      and the notification it showed, if any. */
  datatype Step = Step(state: Selection, started: seq<File>, notice: Option<Notice>)

  /** The image filter keeps nothing exactly when no picked file is an image. */
  lemma NoImagesPicked(files: seq<File>)
    ensures |Filter(files, IsImageFile)| == 0 <==> forall k :: 0 <= k < |files| ==> !IsImageFile(files[k])
  {
    var valid := Filter(files, IsImageFile);
    if |valid| > 0 {
      assert IsImageFile(valid[0]) && valid[0] in files;
    }
  }

  /** The reads an add starts are for picked image files. */
  lemma StartedArePickedImages(selected: seq<File>, files: seq<File>)
    ensures var started := AddNew(selected, Filter(files, IsImageFile)).started;
            forall k :: 0 <= k < |started| ==> IsImageFile(started[k]) && started[k] in files
  {
    var valid := Filter(files, IsImageFile);
    var started := AddNew(selected, valid).started;
    AddNewStartsOnlyNew(selected, valid);
    forall k | 0 <= k < |started| ensures IsImageFile(started[k]) && started[k] in files {
      var j :| 0 <= j < |valid| && valid[j] == started[k];
    }
  }

  /** After an add, every picked image file has its name and size selected. */
  lemma PickedImagesSelected(selected: seq<File>, files: seq<File>)
    ensures var after := AddNew(selected, Filter(files, IsImageFile)).selected;
            forall k :: 0 <= k < |files| && IsImageFile(files[k]) ==> HasEntry(after, files[k])
  {
    var valid := Filter(files, IsImageFile);
    var after := AddNew(selected, valid).selected;
    AddNewCoversBatch(selected, valid);
    forall k | 0 <= k < |files| && IsImageFile(files[k]) ensures HasEntry(after, files[k]) {
      var j :| 0 <= j < |valid| && valid[j] == files[k];
    }
  }

  /** `handleFiles`: keep the image files; with none, only notify; otherwise
      add the new ones. The data URLs arrive later, one `FileLoaded` each. */
  function HandleFiles(st: Selection, files: seq<File>): (r: Step)
    ensures (forall k :: 0 <= k < |files| ==> !IsImageFile(files[k])) <==> r.notice == Some(SelectValidImages)
    ensures r.notice.Some? ==> r.state == st && r.started == []
    ensures r.state.imageDataArray == st.imageDataArray
    ensures r.state.selectedFiles == st.selectedFiles + r.started
    ensures NoDuplicateEntries(st.selectedFiles) ==> NoDuplicateEntries(r.state.selectedFiles)
    ensures forall k :: 0 <= k < |files| && IsImageFile(files[k]) ==> HasEntry(r.state.selectedFiles, files[k])
    ensures forall k :: 0 <= k < |r.started| ==> IsImageFile(r.started[k]) && r.started[k] in files
  {
    var valid := Filter(files, IsImageFile);
    NoImagesPicked(files);
    if |valid| == 0 then
      Step(st, [], Some(SelectValidImages))
    else
      var a := AddNew(st.selectedFiles, valid);
      assert NoDuplicateEntries(st.selectedFiles) ==> NoDuplicateEntries(a.selected) by {
        if NoDuplicateEntries(st.selectedFiles) {
          AddNewKeepsDistinct(st.selectedFiles, valid);
        }
      }
      StartedArePickedImages(st.selectedFiles, files);
      PickedImagesSelected(st.selectedFiles, files);
      Step(Selection(a.selected, st.imageDataArray), a.started, None)
  }

  /** Picking image files whose names and sizes are all selected already
      changes nothing and starts no read. */
  lemma ReAddChangesNothing(st: Selection, files: seq<File>)
    requires exists k :: 0 <= k < |files| && IsImageFile(files[k])
    requires forall k :: 0 <= k < |files| && IsImageFile(files[k]) ==> HasEntry(st.selectedFiles, files[k])
    ensures HandleFiles(st, files) == Step(st, [], None)
  {
    var valid := Filter(files, IsImageFile);
    var k :| 0 <= k < |files| && IsImageFile(files[k]);
    assert files[k] in valid;
    forall j | 0 <= j < |valid| ensures HasEntry(st.selectedFiles, valid[j]) {
      var i :| 0 <= i < |files| && files[i] == valid[j];
    }
    AddNewOfKnownFiles(st.selectedFiles, valid);
  }

  /** Picking the same files twice is the same as picking them once. */
  lemma HandleFilesIdempotent(st: Selection, files: seq<File>)
    ensures HandleFiles(HandleFiles(st, files).state, files).state == HandleFiles(st, files).state
    ensures HandleFiles(HandleFiles(st, files).state, files).started == []
  {
    var once := HandleFiles(st, files).state;
    if exists k :: 0 <= k < |files| && IsImageFile(files[k]) {
      ReAddChangesNothing(once, files);
    }
  }

  /** The selection after a load event, and the index the new preview's
      remove button is bound to. */
  datatype Loaded = Loaded(state: Selection, removeIndex: int)

  /** The load event of one started read, as written: the data URL is pushed,
      and its preview's remove button gets `selectedFiles.length - 1`. */
  function FileLoadedAsWritten(st: Selection, dataUrl: string): (r: Loaded)
    ensures r.state.imageDataArray == st.imageDataArray + [dataUrl]
    ensures r.state.selectedFiles == st.selectedFiles
  {
    Loaded(Selection(st.selectedFiles, st.imageDataArray + [dataUrl]), |st.selectedFiles| - 1)
  }

  /** The load event with the remove button bound to the position the data
      URL takes in `imageDataArray`, which is what `removeImage` splices. */
  function FileLoaded(st: Selection, dataUrl: string): (r: Loaded)
    ensures r.state.imageDataArray == st.imageDataArray + [dataUrl]
    ensures r.state.selectedFiles == st.selectedFiles
    ensures 0 <= r.removeIndex < |r.state.imageDataArray| && r.state.imageDataArray[r.removeIndex] == dataUrl
  {
    Loaded(Selection(st.selectedFiles, st.imageDataArray + [dataUrl]), |st.imageDataArray|)
  }

  /** Once every started read has delivered its data URL, the two lists are
      as long as each other again, whatever order the reads finished in. */
  lemma {:induction false} LoadsRestoreLength(st: Selection, dataUrls: seq<string>)
    requires |st.selectedFiles| == |st.imageDataArray| + |dataUrls|
    ensures |LoadAll(st, dataUrls).selectedFiles| == |LoadAll(st, dataUrls).imageDataArray|
    ensures LoadAll(st, dataUrls).imageDataArray == st.imageDataArray + dataUrls
    decreases |dataUrls|
  {
    if |dataUrls| > 0 {
      LoadsRestoreLength(FileLoaded(st, dataUrls[0]).state, dataUrls[1..]);
      assert st.imageDataArray + [dataUrls[0]] + dataUrls[1..] == st.imageDataArray + dataUrls;
    }
  }

  /** Delivering the given data URLs one load event after another. */
  function LoadAll(st: Selection, dataUrls: seq<string>): Selection
    decreases |dataUrls|
  {
    if |dataUrls| == 0 then st else LoadAll(FileLoaded(st, dataUrls[0]).state, dataUrls[1..])
  }

  /** JavaScript's relative start index of `splice`. */
  function SpliceStart(len: nat, start: int): nat {
    if start < 0 then (if len + start < 0 then 0 else len + start)
    else if start > len then len else start
  }

  /** `s.splice(start, 1)`: a negative start counts from the end, a start at
      or past the end removes nothing. */
  function Splice1<T>(s: seq<T>, start: int): (r: seq<T>)
    ensures 0 <= start < |s| ==> r == s[..start] + s[start + 1..]
    ensures start >= |s| ==> r == s
    ensures -|s| <= start < 0 ==> r == s[..|s| + start] + s[|s| + start + 1..]
    ensures start < -|s| && |s| > 0 ==> r == s[1..]
    ensures |s| == 0 ==> r == s
  {
    var p := SpliceStart(|s|, start);
    if p < |s| then s[..p] + s[p + 1..] else s
  }

  /** Dropping one element keeps the others distinct. */
  lemma RemovalKeepsDistinct(files: seq<File>, p: nat)
    requires p < |files| && NoDuplicateEntries(files)
    ensures NoDuplicateEntries(files[..p] + files[p + 1..])
  {
    var r := files[..p] + files[p + 1..];
    forall i, j | 0 <= i < j < |r| ensures !SameEntry(r[i], r[j]) {
      var i' := if i < p then i else i + 1;
      var j' := if j < p then j else j + 1;
      assert r[i] == files[i'] && r[j] == files[j'];
    }
  }

  /** `removeImage(index)`: the same splice on both lists. */
  function RemoveImage(st: Selection, index: int): (r: Selection)
    ensures 0 <= index < |st.selectedFiles| ==>
              r.selectedFiles == st.selectedFiles[..index] + st.selectedFiles[index + 1..]
    ensures 0 <= index < |st.imageDataArray| ==>
              r.imageDataArray == st.imageDataArray[..index] + st.imageDataArray[index + 1..]
    ensures index >= |st.selectedFiles| ==> r.selectedFiles == st.selectedFiles
    ensures index >= |st.imageDataArray| ==> r.imageDataArray == st.imageDataArray
    ensures |st.selectedFiles| == |st.imageDataArray| ==> |r.selectedFiles| == |r.imageDataArray|
    ensures NoDuplicateEntries(st.selectedFiles) ==> NoDuplicateEntries(r.selectedFiles)
  {
    var p := SpliceStart(|st.selectedFiles|, index);
    assert p < |st.selectedFiles| && NoDuplicateEntries(st.selectedFiles) ==>
             NoDuplicateEntries(st.selectedFiles[..p] + st.selectedFiles[p + 1..]) by {
      if p < |st.selectedFiles| && NoDuplicateEntries(st.selectedFiles) {
        RemovalKeepsDistinct(st.selectedFiles, p);
      }
    }
    Selection(Splice1(st.selectedFiles, index), Splice1(st.imageDataArray, index))
  }

  /** With the corrected binding, a preview's remove button removes exactly
      the data URL that preview shows. */
  lemma RemoveButtonRemovesItsImage(st: Selection, dataUrl: string)
    ensures RemoveImage(FileLoaded(st, dataUrl).state, FileLoaded(st, dataUrl).removeIndex).imageDataArray == st.imageDataArray
  {
    var l := FileLoaded(st, dataUrl);
    assert l.state.imageDataArray[..l.removeIndex] == st.imageDataArray;
  }

  /** Picking two distinct image files into an empty selection selects both
      and starts both reads. */
  lemma PickTwoImages(a: File, b: File)
    requires IsImageFile(a) && IsImageFile(b) && !SameEntry(a, b)
    ensures HandleFiles(Selection([], []), [a, b]) == Step(Selection([a, b], []), [a, b], None)
  {
    FilterAllKept([a, b], IsImageFile);
    assert [a, b][1..] == [b];
    assert [b][1..] == [];
    assert !HasEntry([a], b);
    assert AddNew([a], [b]) == Added([a, b], [b]);
    assert AddNew([], [a, b]) == Added([a, b], [a, b]);
  }

  /** As written, two images picked together both get remove index 1 once
      their reads finish, so the first preview's button removes the second
      image's data URL. */
  lemma PreviewIndexCollision(a: File, b: File, firstUrl: string, secondUrl: string)
    requires IsImageFile(a) && IsImageFile(b) && !SameEntry(a, b)
    ensures var picked := HandleFiles(Selection([], []), [a, b]);
            var first := FileLoadedAsWritten(picked.state, firstUrl);
            var second := FileLoadedAsWritten(first.state, secondUrl);
            && first.removeIndex == 1 && second.removeIndex == 1
            && second.state.imageDataArray == [firstUrl, secondUrl]
            && RemoveImage(second.state, first.removeIndex).imageDataArray == [firstUrl]
  {
    PickTwoImages(a, b);
    assert [firstUrl, secondUrl][..1] == [firstUrl];
  }

  /** While the second read of the two picks of `PickTwoImages` is still
      pending, the as-written index of the first preview lies inside
      `selectedFiles` but past the end of `imageDataArray`: its button drops
      the second file and keeps the data URL list as it is. */
  lemma RemoveWhileReadPending(a: File, b: File, url: string)
    ensures var first := FileLoadedAsWritten(Selection([a, b], []), url);
            && first.removeIndex == 1
            && |first.state.imageDataArray| == 1 < |first.state.selectedFiles|
            && RemoveImage(first.state, first.removeIndex) == Selection([a], [url])
  {
    assert [a, b][..1] + [a, b][2..] == [a];
  }

  /** The same two picks with the corrected binding: each preview removes its
      own data URL. */
  lemma PreviewIndexCorrected(a: File, b: File, firstUrl: string, secondUrl: string)
    requires IsImageFile(a) && IsImageFile(b) && !SameEntry(a, b)
    ensures var picked := HandleFiles(Selection([], []), [a, b]);
            var first := FileLoaded(picked.state, firstUrl);
            var second := FileLoaded(first.state, secondUrl);
            && first.removeIndex == 0 && second.removeIndex == 1
            && RemoveImage(second.state, first.removeIndex).imageDataArray == [secondUrl]
            && RemoveImage(second.state, second.removeIndex).imageDataArray == [firstUrl]
  {
    PickTwoImages(a, b);
    var urls := [firstUrl, secondUrl];
    var first := FileLoaded(Selection([a, b], []), firstUrl);
    assert first == Loaded(Selection([a, b], [firstUrl]), 0);
    var second := FileLoaded(first.state, secondUrl);
    assert second == Loaded(Selection([a, b], urls), 1);
    assert urls[..0] + urls[1..] == [secondUrl];
    assert urls[..1] + urls[2..] == [firstUrl];
  }

  /** `clearImages`: both lists emptied. */
  function ClearImages(): (r: Selection)
    ensures r.selectedFiles == [] && r.imageDataArray == []
  {
    Selection([], [])
  }

  /** What the submit handler does. */
  datatype Submission = NotSent(notice: Notice) | Posted(data: string)

  /** The submit handler: nothing is sent without a data URL; otherwise the
      form field carries the data URLs joined with `$`. */
  function Submit(st: Selection): (r: Submission)
    ensures r.NotSent? <==> |st.imageDataArray| == 0
    ensures r.NotSent? ==> r.notice == SelectAtLeastOneImage
    ensures r.Posted? ==> Split(r.data, Separator) == st.imageDataArray || exists k :: 0 <= k < |st.imageDataArray| && Separator in st.imageDataArray[k]
  {
    if |st.imageDataArray| == 0 then NotSent(SelectAtLeastOneImage)
    else
      var data := Join(st.imageDataArray, Separator);
      assert (forall k :: 0 <= k < |st.imageDataArray| ==> Separator !in st.imageDataArray[k]) ==>
               Split(data, Separator) == st.imageDataArray by {
        if forall k :: 0 <= k < |st.imageDataArray| ==> Separator !in st.imageDataArray[k] {
          SplitOfJoin(st.imageDataArray, Separator);
        }
      }
      Posted(data)
  }

  /** The server recovers exactly the submitted data URLs, in order, when
      each is non-blank and free of `$`; the upload route then stores the
      decodable ones. */
  lemma SubmitReachesServer(st: Selection, user: Option<string>, b64decode: string -> Option<Bytes>)
    requires |st.imageDataArray| > 0
    requires forall k :: 0 <= k < |st.imageDataArray| ==>
               NonBlank(st.imageDataArray[k]) && Separator !in st.imageDataArray[k]
    ensures Submit(st).Posted?
    ensures ParseItems(Submit(st).data) == Success(st.imageDataArray)
    ensures LoggedIn(user) ==>
              Upload(Some(Submit(st).data), user, b64decode) == Saved(StoredRows(user.value, st.imageDataArray, b64decode))
  {
    ParseOfJoin(st.imageDataArray);
  }
}
